=== FILE: README.md ===
# conda package format v2: container plan

This project models the decision layer of `CondaFormat_v2` in
`src/conda_package_handling/conda_fmt.py`, the writer and reader of `.conda`
packages. A `.conda` package is a zip container with three members, in this
order:

1. `metadata.json`, holding `{"conda_pkg_format_version": 2}`;
2. `pkg-<id>.tar.zst`, a zstd-compressed tar stream of the payload files;
3. `info-<id>.tar.zst`, the same for the metadata (`info`) files.

Given the inputs of `create`, the model computes everything that fixes this
layout. That covers the output path, the identifier `<id>`, the split of the
file list between the two sections, the member names and order, the version
marker text, and the zstd settings. It also computes what `extract` and
`extract_info` hand to the streaming extractor. The zip, tar and zstd
libraries are not modelled. A member records its name and what would be
streamed into it.

Files:

- `wrappers.dfy`: `Option` and `Result`, standing in for `None` and raised exceptions.
- `pystr.dfy` (`PyStr`): the Python `str` operations used.
  - `startswith`, `endswith` and `split(c, 1)`.
  - `replace(old, "")`, as `RemoveAll`.
  - `split(sep)` and `sep.join`, with Python's left-to-right, non-overlapping matching.
- `pyint.dfy` (`PyInt`): `int(text)` as `ParseInt`, and `str(n)` as `Show`. `json.dumps` uses the same decimal text for an integer.
- `posixpath.dfy` (`PosixPath`): `isabs`, `basename`, `dirname`, two-argument `join` and `normpath`.
- `conda_fmt.dfy` (`CondaFormat`): the operations of `CondaFormat_v2` and its constants.
- `conda_fmt_props.dfy` (`CondaFormatProperties`): the properties, stated against partners.
  - A reader-side recogniser of member names, `ComponentOf`.
  - A reader of the version marker, `ReadFormatVersion`.
  - The round trip of the level option.
  - Set algebra over the two sections.

`utils.filter_info_files` is not part of this model. `Create` takes it as a
function parameter `filterInfoFiles` and assumes nothing about it: given the
file list and the prefix, it returns the payload files. `os.getcwd()` becomes
an explicit `cwd` parameter of `Extract`. The default `out_folder` becomes
the explicit `outFolder` parameter of `Create`.

## Model

| member | source | states |
|---|---|---|
| `CondaFormat.Place` | src/conda_package_handling/conda_fmt.py:57-59 | An absolute `out_fn` supplies both folder and file name. The file name is then its last component: no `/`, a proper suffix of `out_fn`, preceded by a `/`. When the path has no empty component, joining the folder and the name gives `out_fn` back. A relative `out_fn` is kept with the caller's folder. |
| `CondaFormat.PlaceKeepsFile` | src/conda_package_handling/conda_fmt.py:57-60 | For an absolute `out_fn`, joining the folder and the file name that `create` takes from it names the same file as `out_fn`: both have one `normpath`, even when `out_fn` has empty components such as `/tmp//foo.conda`. |
| `CondaFormat.InfoFiles` | src/conda_package_handling/conda_fmt.py:62-63 | The metadata files are disjoint from the payload files and a subset of the listed files. Every listed file the filter did not return is among them. When the filter keeps to the list, the two sets together are exactly the listed files. |
| `CondaFormat.SelectCompressor` | src/conda_package_handling/conda_fmt.py:66-73 | A non-empty `filter_opts` starting with `zstd:compression-level=` gives the level `int()` reads from the text after that prefix, with one thread. Such an option is rejected exactly when `int()` rejects that text, with decimal digits read as ASCII `0`-`9`; `int()` strips only Python whitespace around the digits. Any other options leave the caller's compressor. |
| `CondaFormat.LevelTextAfterFirstEquals` | src/conda_package_handling/conda_fmt.py:69-71 | In such an option, `split("=", 1)[-1]` is exactly the text after the prefix. |
| `CondaFormat.Create` | src/conda_package_handling/conda_fmt.py:47-98 | `create` stops exactly when the level text of the options is rejected by `int()`, with decimal digits read as ASCII `0`-`9`. When it stops, only `metadata.json` has been written. Otherwise it writes three members, the first being the version marker. |
| `CondaFormat.ExtractComponents` | src/conda_package_handling/conda_fmt.py:34 | The components requested are never empty. A non-empty `components` keyword is used as given. Without one, or with an empty one, the request is exactly `["info", "pkg"]`. |
| `CondaFormat.ResolvePackagePath` | src/conda_package_handling/conda_fmt.py:35-36 | An absolute package path is kept as given. A relative one becomes normalised and, when the working directory is absolute, absolute. A relative `fn` made of plain components (no empty, `.` or `..` component) under a normalised absolute working directory gives exactly `join(cwd, fn)`. More generally, for a relative `fn` without `..` under such a directory, the empty and `.` components vanish and the rest is joined onto `cwd`; when nothing is left the result is `cwd` itself. So `./foo.conda` gives `join(cwd, "foo.conda")`. |
| `CondaFormat.Extract` | src/conda_package_handling/conda_fmt.py:33-40 | The extractor is called exactly when a non-empty destination is given; `None` fails with the `isdir` TypeError and `""` with the `makedirs` error. The extractor receives that destination and the given non-empty `components` list, or `info`, `pkg` without one. It receives an absolute `fn` unchanged and a relative one normalised, and the path is absolute when the working directory is. A plain relative `fn` under a normalised absolute working directory arrives as `join(cwd, fn)`. A relative `fn` without `..` arrives as its remaining components joined onto such a directory, after its empty and `.` components are dropped, or as `cwd` when none remain. |
| `CondaFormat.ExtractInfo` | src/conda_package_handling/conda_fmt.py:42-44 | `extract_info` requests exactly `["info"]`. It fails with the `isdir(None)` TypeError when no destination is given, and when the destination is empty. Otherwise the extractor receives the given destination and the package path that `extract` resolves for `fn`. |
| `CondaFormatProperties.SupportedAppend` | src/conda_package_handling/conda_fmt.py:29-30 | `a + ".conda" + b` is supported exactly when `b` is empty or itself supported. A `.conda` inside the name does not count. |
| `CondaFormatProperties.SupportedIsStemPlusExtension` | src/conda_package_handling/conda_fmt.py:29-30 | A name is supported exactly when there is a stem it is made of followed by `.conda`. |
| `CondaFormatProperties.NoEarlierOccurrence` | src/conda_package_handling/conda_fmt.py:61 | `.conda` cannot overlap itself. When `a` holds none, the first `.conda` in `a + ".conda" + b` starts right after `a`. |
| `CondaFormatProperties.FileIdSplit` | src/conda_package_handling/conda_fmt.py:61 | `file_id` keeps the text before the first `.conda` and goes on deleting in the rest. |
| `CondaFormatProperties.FileIdStripsExtension` | src/conda_package_handling/conda_fmt.py:61 | A name whose only `.conda` is its extension loses exactly that extension. |
| `CondaFormatProperties.FileIdOfPlainName` | src/conda_package_handling/conda_fmt.py:61 | A name without `.conda` is its own `file_id`. |
| `CondaFormatProperties.FileIdOfFoo` | src/conda_package_handling/conda_fmt.py:61 | `foo.conda` has `file_id` `foo`. |
| `CondaFormatProperties.FileIdRemovesInnerOccurrences` | src/conda_package_handling/conda_fmt.py:61 | Every occurrence is deleted, so `a.conda-b.conda` has `file_id` `a-b`. |
| `CondaFormatProperties.CreatePath` | src/conda_package_handling/conda_fmt.py:57-60 | A relative `out_fn` gives the path `join(out_folder, out_fn)`. For an absolute `out_fn`, the result does not depend on `out_folder` and names the same file as `out_fn`: the two have one `normpath`. When that path has no empty component, the returned path is `out_fn` itself. |
| `CondaFormatProperties.BasenameKeepsExtension` | src/conda_package_handling/conda_fmt.py:59 | The basename of a `.conda` name still ends in `.conda`. |
| `CondaFormatProperties.JoinKeepsExtension` | src/conda_package_handling/conda_fmt.py:60 | Joining a `.conda` name onto any folder gives a `.conda` path. |
| `CondaFormatProperties.CreateKeepsExtension` | src/conda_package_handling/conda_fmt.py:57-60 | The returned path carries the `.conda` extension whenever `out_fn` does. Its basename is the package's file name when that holds no `/`. |
| `CondaFormatProperties.RelativeSubdirectoryInMemberNames` | src/conda_package_handling/conda_fmt.py:83-86 | A relative `out_fn` of the form `dir/stem.conda` yields the member `pkg-dir/stem.tar.zst`. The directory stays in the identifier. |
| `CondaFormatProperties.ComponentNameRoundTrip` | src/conda_package_handling/conda_fmt.py:83-86 | Reading back a section name gives the section and identifier it was built from. `metadata.json` is no section name. |
| `CondaFormatProperties.CreateLayout` | src/conda_package_handling/conda_fmt.py:79-86 | A successful `create` writes exactly three members, in order: the JSON marker `metadata.json`, then the payload section, then the metadata section. Both sections read back with one identifier, `file_id` of the package's file name. The three names are distinct, and both sections use the same compressor. |
| `CondaFormatProperties.CreateSectionsPartition` | src/conda_package_handling/conda_fmt.py:62-63 | The payload section streams exactly the filter's output, as an ordered list with its order and duplicates, and the metadata section is an unordered set sharing no file with it. The metadata section holds only listed files. With a filter that keeps to the list, the two sections together hold exactly the listed files. |
| `CondaFormatProperties.MarkerRoundTrip` | src/conda_package_handling/conda_fmt.py:79-80 | The marker text reads back as the version it was written with. |
| `CondaFormatProperties.MarkerIsVersionTwo` | src/conda_package_handling/conda_fmt.py:79-80 | The marker member is `metadata.json` with text `{"conda_pkg_format_version": 2}`, which reads back as version 2. |
| `CondaFormatProperties.LevelOptionRoundTrip` | src/conda_package_handling/conda_fmt.py:69-73 | The option `zstd:compression-level=<n>` selects the compressor level `n` with one thread, for every integer `n`. Whether zstd accepts that level is not modelled. |
| `CondaFormatProperties.DefaultTupleMatchesDefaultCompressor` | src/conda_package_handling/conda_fmt.py:16-21 | The published default compression tuple selects level 22 with one thread, the same as the default compressor. |
| `CondaFormatProperties.MissingLevelAborts` | src/conda_package_handling/conda_fmt.py:79-87 | With no level after the prefix, `create` stops, and only `metadata.json` has been written. |
| `CondaFormatProperties.SpacePaddedLevelRead` | src/conda_package_handling/conda_fmt.py:69-73 | A level text with a leading space, `zstd:compression-level= <n>`, still selects level `n`, because `int()` strips whitespace. |
| `CondaFormatProperties.SeparatorPaddedLevelAborts` | src/conda_package_handling/conda_fmt.py:69-87 | A level text led by the ASCII separator U+001C, which `str.isspace()` accepts but `int()` does not strip, is rejected, and `create` stops after `metadata.json`. |
| `CondaFormatProperties.ExtractComponentDefaults` | src/conda_package_handling/conda_fmt.py:34-44 | For a non-empty destination, an absent and an empty `components` keyword behave alike, both requesting `info` then `pkg`, and `extract_info` requests `info` alone. `extract_info` without a destination, and `extract` with an empty one, fail. |
| `PyStr.RemoveAllNoMatch` | src/conda_package_handling/conda_fmt.py:61 | `replace` leaves a string without the pattern unchanged. |
| `PyStr.RemoveAllFirstMatch` | src/conda_package_handling/conda_fmt.py:61 | When the first occurrence of the pattern follows `a`, deleting all occurrences keeps `a` and continues after the pattern. |
| `PyStr.RemoveAllIsJoinOfSplit` | src/conda_package_handling/conda_fmt.py:61 | `s.replace(p, "")` equals `"".join(s.split(p))`. |
| `PyStr.SplitOnce` | src/conda_package_handling/conda_fmt.py:71 | `split(c, 1)` gives one or two parts. It gives one part exactly when `c` does not occur. The first part has no `c`, and joining the parts with `c` restores the text. |
| `PyStr.JoinOfSplit` | src/conda_package_handling/conda_fmt.py:36 | Joining the pieces of `split(sep)` with `sep` restores the string. |
| `PyStr.SplitOfJoin` | src/conda_package_handling/conda_fmt.py:36 | For a one-character separator, splitting a join of separator-free parts gives the parts back. |
| `PyInt.ParseShow` | src/conda_package_handling/conda_fmt.py:71 | `int(str(n)) == n` for every integer `n` of the model, whose `int()` and `str()` have no digit limit. |
| `PyInt.LeadingSpaceIgnored` | src/conda_package_handling/conda_fmt.py:71 | A leading whitespace character, as `int()` strips it, changes neither whether the text parses nor the value. |
| `PyInt.LeadingJunkRejected` | src/conda_package_handling/conda_fmt.py:71 | A text led by a character that is not whitespace, not an ASCII digit and not a sign is rejected by `int()`. |
| `PosixPath.Basename` | src/conda_package_handling/conda_fmt.py:59 | The basename has no `/` and ends the path. It is either the whole path or preceded by a `/`. |
| `PosixPath.Join` | src/conda_package_handling/conda_fmt.py:60 | `join(a, b)` ends with `b`. It is `b` itself when `b` is absolute. Otherwise it starts with `a`, and between `a` and `b` there is exactly one `/`, or nothing when `a` is empty or already ends in `/`. |
| `PosixPath.NormPathOfDirJoin` | src/conda_package_handling/conda_fmt.py:58-60 | For every absolute path `p`, `join(dirname(p), basename(p))` and `p` have the same `normpath`. A run of slashes before the last component becomes one, and `normpath` collapses such runs anyway. |
| `PosixPath.NormPathOfRelativeJoin` | src/conda_package_handling/conda_fmt.py:36 | For a normalised absolute `cwd` and a relative `fn` without a `..` component, `normpath(join(cwd, fn))` is `cwd` with the non-empty, non-`.` components of `fn` joined onto it, in order; it is `cwd` itself when there are none. |
| `PosixPath.JoinDirnameBasename` | src/conda_package_handling/conda_fmt.py:58-60 | For an absolute path without an empty component, `join(dirname(p), basename(p)) == p`. |
| `PosixPath.BasenameOfJoin` | src/conda_package_handling/conda_fmt.py:59-60 | The basename of `join(folder, name)` is `name` for a name without `/`. |
| `PosixPath.JoinKeepsRoot` | src/conda_package_handling/conda_fmt.py:36 | Joining onto an absolute path gives an absolute path. |
| `PosixPath.NormPathRooted` | src/conda_package_handling/conda_fmt.py:36 | `normpath` never returns the empty string. Its result is absolute exactly when its argument is. |
| `PosixPath.NormPathIdempotent` | src/conda_package_handling/conda_fmt.py:36 | `normpath(normpath(p)) == normpath(p)`. |
| `PosixPath.NormPathKeepsPlainJoin` | src/conda_package_handling/conda_fmt.py:36 | `normpath` leaves `join(cwd, fn)` unchanged when `cwd` is absolute and normalised and `fn` is a plain relative path. |
| `PosixPath.NormPathRootedHasNoParent` | src/conda_package_handling/conda_fmt.py:36 | A normalised absolute path has no `..` component. |

## How the code behaves at the edges

The source's module docstring points to a public description of the format. The model follows the code. These behaviours of the code are easy to miss:

- **Identifier.** `out_fn.replace(".conda", "")` deletes every `.conda` in the file name, not only the extension. So `a.conda-b.conda` gives `a-b` (`FileIdRemovesInnerOccurrences`).
  - A relative `out_fn` with a directory part keeps that directory in both member names (`RelativeSubdirectoryInMemberNames`).
- **Returned path.** `create` returns `join(out_folder, out_fn)`. This is absolute only when `out_folder` or `out_fn` is. It is not resolved further.
- **Version marker.** The marker is the JSON object `{"conda_pkg_format_version": 2}`, written as `json.dumps` writes it.
- **Partition rule.** This file does not choose the metadata files by a directory rule. They are the set difference between the file list and whatever `utils.filter_info_files` returns.
  - The payload section streams the filter's list as returned, duplicates and files outside the list included.
- **Metadata section order.** The metadata files are a Python `set`, so their order in the tar stream is the set's iteration order. The model keeps them as a set (`Unordered`).
  - Python randomises `str` hashes per process unless `PYTHONHASHSEED` is fixed. The set's iteration order, and so the bytes of the metadata tar, can therefore differ between two runs on the same input.
- **Level parse error.** A level that `int()` rejects is only noticed when the first section's compressor is built. By then `metadata.json` has been written, and the zip file is closed with that one member (`MissingLevelAborts`).
- **Destination.** `extract_info` has `dest_dir=None` as its default, and `os.path.isdir(None)` raises `TypeError`. So calling it without a destination fails (`ExtractInfo`). An empty destination is never a directory, and `os.makedirs("")` raises, so it fails too (`Extract`).

## Left out

- Zip writing, tar streaming and zstd compression are library calls over file objects. Only member names, order and intended contents are modelled. This includes `ZIP_STORED`, `TarFile.add` (which also recurses into directories) and the close order of stream and compressor.
- `utils.tmp_chdir`, `utils.anonymize_tarinfo`, `utils.filter_info_files` and `utils.ensure_list` are not part of this model.
  - The filter is a parameter with no assumed behaviour.
  - The `components` keyword is taken as absent or as a list.
  - Entry normalisation is not represented.
- `streaming._extract`, `os.makedirs` and the `isdir` test of an existing destination are file-system I/O. The model stops at the arguments passed to `_extract`.
- `get_pkg_details` does `os.stat` and MD5/SHA-256 hashing. It is I/O and cryptography, not layout logic.
- Thread count only affects speed inside the zstd library.
- `os.path` is modelled as `posixpath`. The Windows rules of `ntpath` are not modelled: backslash separators, drive letters and UNC prefixes (for example `C:\out\foo.conda` is relative here). They are a second path grammar outside the format's layout logic.
- CondaFormat.Create: the level range that zstd accepts is not modelled. `zstandard.ZstdCompressor` raises for a level above its maximum (for example 23), and `create` then stops after `metadata.json` just as for an unparsable level. The model instead returns `Created` with a `ZstdConfig` holding that level, because the range is fixed inside the zstd library, which is not part of this model.
- CondaFormat.Extract: only the two destinations that always fail, `None` and `""`, are modelled as errors. `os.makedirs` can also fail because of the file system (permissions, an existing file in the way), and the extractor itself can fail; both are I/O.
- PyInt.ParseInt: Python's `int()` also accepts non-ASCII decimal digits. The model accepts only `0`-`9`.
- CondaFormat.SelectCompressor, CondaFormat.Create and PyInt.LeadingJunkRejected inherit that restriction: a level text in, say, Arabic-Indic digits is rejected by the model though `int()` reads it.
- CondaFormat.ResolvePackagePath and CondaFormat.Extract: for a relative `fn` with a `..` component, the resolved path is only stated to be normalised, and absolute under an absolute working directory. What `..` cancels depends on the folders of `cwd`, and spelling that out adds nothing to the package layout.
- CondaFormat.SelectCompressor: a level text longer than Python's digit limit is accepted by the model, though `int()` rejects it (see the next line).
- PyInt.ParseShow: since Python 3.11, `int()` and `str()` refuse decimal texts of more than 4300 digits by default (`sys.set_int_max_str_digits`). `ParseInt` and `Show` have no such limit, so the round trip, `SelectCompressor`'s parse and `LevelOptionRoundTrip` are stated for every integer. The limit is an interpreter setting, not part of the package format.
- The `compressor` argument is a closure in the source. Here it is the configuration it would build, a `ZstdConfig`.
- A `compression_tuple` that is not a 3-tuple, and `filter_opts` values that are not strings, are not modelled.

=== FILE: conda_fmt.dfy ===
/** The decisions that fix the layout of a `.conda` (format version 2)
    package: which file names are packages of this format, where a new
    package is written, the identifier shared by its two sections, how the
    files are split between those sections, the three members of the outer
    zip container and their order, the zstd settings, and which components
    an extraction asks for.

    The zip, tar and zstd libraries themselves are not modelled: a member
    records its name and what would be streamed into it. */
module CondaFormat {
  import opened Wrappers
  import opened PyStr
  import opened PyInt
  import opened PosixPath

  /** Version recorded in `metadata.json`. */
  const CondaPackageFormatVersion: int := 2
  /** Default zstd level (conda's default, the library's maximum). */
  const ZstdCompressLevel: int := 22
  /** Default number of zstd worker threads. */
  const ZstdCompressThreads: int := 1

  /** File extension of this format; also what is removed to form the
      identifier of the two sections. */
  const Extension: string := ".conda"
  /** Name of the version-marker member. */
  const MetadataName: string := "metadata.json"
  /** Extension of the two section members. */
  const SectionExtension: string := ".tar.zst"
  /** A `filter_opts` text with this prefix selects the zstd level. */
  const LevelOptionPrefix: string := "zstd:compression-level="

  /** The `compression_tuple` keyword: extension, filter name and filter
      options, each possibly `None`. Only the options are read here. */
  datatype CompressionTuple = CompressionTuple(ext: Option<string>, filter: Option<string>, filterOpts: Option<string>)

  /** The value used when the keyword is not given. */
  const NoCompressionTuple := CompressionTuple(None, None, None)
  /** The module's published default tuple. */
  const DefaultCompressionTuple := CompressionTuple(Some(".tar.zst"), Some("zstd"), Some("zstd:compression-level=22"))

  /** The inspectable content of a zstd compressor construction. */
  datatype ZstdConfig = ZstdConfig(level: int, threads: int)

  /** What the default `compressor` argument builds. */
  const DefaultCompressor := ZstdConfig(ZstdCompressLevel, ZstdCompressThreads)

  /** The two sections of a package. */
  datatype Component = Pkg | Info

  /** The component names `extract` understands. */
  function ComponentKeyword(c: Component): string {
    match c
    case Pkg => "pkg"
    case Info => "info"
  }

  /** Files streamed into a section: the payload keeps the order the filter
      returned (duplicates included); the metadata files are a Python `set`,
      streamed in whatever order the set iterates. */
  datatype Entries = Listed(paths: seq<string>) | Unordered(files: set<string>)

  /** The content of one zip member. */
  datatype Body = Json(text: string) | TarZst(entries: Entries, compressor: ZstdConfig)

  datatype Member = Member(name: string, body: Body)

  /** Why `create` stopped: `int()` rejected the level in the options. */
  datatype CreateError = InvalidCompressionLevel(cause: IntError)

  /** The result of `create`: the returned path and the members written, in
      order; or, when the level cannot be parsed, the path of the file left
      behind with the members written before the error. */
  datatype CreateOutcome =
    | Created(path: string, members: seq<Member>)
    | Aborted(path: string, written: seq<Member>, error: CreateError)

  // ---------------------------------------------------------------------
  // Format detection

  /** `CondaFormat_v2.supported(fn)`. */
  predicate Supported(fn: string) {
    EndsWith(fn, Extension)
  }

  // ---------------------------------------------------------------------
  // Output placement and section identifier

  /** Folder and file name the package is written to: an absolute `out_fn`
      supplies both and the given folder is ignored. */
  function Place(outFn: string, outFolder: string): (r: (string, string))
    ensures IsAbs(outFn) ==> '/' !in r.1 && EndsWith(outFn, r.1)
    ensures IsAbs(outFn) ==> |r.1| < |outFn| && outFn[|outFn| - |r.1| - 1] == '/'
    ensures IsAbs(outFn) && !Contains(outFn, "//") ==> Join(r.0, r.1) == outFn
    ensures !IsAbs(outFn) ==> r == (outFolder, outFn)
  {
    if IsAbs(outFn) then
      assert outFn[0] in outFn;
      SplitRejoins(outFn);
      (Dirname(outFn), Basename(outFn))
    else (outFolder, outFn)
  }

  /** For an absolute `out_fn`, the folder and name rejoin to a path that
      names the same file as `out_fn`, whatever empty components it has. */
  lemma PlaceKeepsFile(outFn: string, outFolder: string)
    ensures var r := Place(outFn, outFolder);
      IsAbs(outFn) ==> NormPath(Join(r.0, r.1)) == NormPath(outFn)
  {
    if IsAbs(outFn) {
      NormPathOfDirJoin(outFn);
    }
  }

  /** `file_id`: the file name with every `.conda` deleted. */
  function FileId(name: string): (r: string)
    ensures |r| <= |name|
  {
    RemoveAll(name, Extension)
  }

  /** Name of a section member: `pkg-<id>.tar.zst` or `info-<id>.tar.zst`. */
  function ComponentName(c: Component, fileId: string): string {
    ComponentKeyword(c) + "-" + fileId + SectionExtension
  }

  // ---------------------------------------------------------------------
  // Partition

  function SetOf(xs: seq<string>): (r: set<string>)
    ensures forall x :: x in r <==> x in xs
  {
    set x | x in xs
  }

  /** `info_files`: the listed files the filter did not keep for the
      payload. */
  function InfoFiles(fileList: seq<string>, pkgFiles: seq<string>): (info: set<string>)
    ensures info !! SetOf(pkgFiles)
    ensures info <= SetOf(fileList)
    ensures forall f :: f in fileList && f !in pkgFiles ==> f in info
    ensures SetOf(pkgFiles) <= SetOf(fileList) ==> info + SetOf(pkgFiles) == SetOf(fileList)
  {
    SetOf(fileList) - SetOf(pkgFiles)
  }

  // ---------------------------------------------------------------------
  // Version marker

  /** `json.dumps({"conda_pkg_format_version": v})`. */
  function MetadataJson(v: int): string {
    "{\"conda_pkg_format_version\": " + Show(v) + "}"
  }

  /** The first member of every package. */
  function MarkerMember(): Member {
    Member(MetadataName, Json(MetadataJson(CondaPackageFormatVersion)))
  }

  // ---------------------------------------------------------------------
  // Compressor settings

  /** `filter_opts and filter_opts.startswith("zstd:compression-level=")`. */
  predicate UsesLevelOption(filterOpts: Option<string>) {
    filterOpts.Some? && filterOpts.value != [] && StartsWith(filterOpts.value, LevelOptionPrefix)
  }

  /** The compressor each section is built with: the level option, parsed by
      `int()` from the text after the first `=`, with the default thread
      count; otherwise the caller's `compressor`. */
  function SelectCompressor(filterOpts: Option<string>, compressor: ZstdConfig): (r: Result<ZstdConfig, IntError>)
    ensures !UsesLevelOption(filterOpts) ==> r == Ok(compressor)
    ensures UsesLevelOption(filterOpts) ==>
              (r.Ok? <==> ParseInt(filterOpts.value[|LevelOptionPrefix|..]).Ok?)
    ensures UsesLevelOption(filterOpts) && r.Ok? ==>
              r.value == ZstdConfig(ParseInt(filterOpts.value[|LevelOptionPrefix|..]).value, ZstdCompressThreads)
  {
    if UsesLevelOption(filterOpts) then
      var s := filterOpts.value;
      LevelTextAfterFirstEquals(s);
      match ParseInt(Last(SplitOnce(s, '=')))
      case Ok(n) => Ok(ZstdConfig(n, ZstdCompressThreads))
      case Err(e) => Err(e)
    else Ok(compressor)
  }

  /** In an option that starts with the level prefix, the text after the
      first `=` is exactly the text after the prefix. */
  lemma LevelTextAfterFirstEquals(s: string)
    requires StartsWith(s, LevelOptionPrefix)
    ensures Last(SplitOnce(s, '=')) == s[|LevelOptionPrefix|..]
  {
    var k := |LevelOptionPrefix| - 1;
    assert s[k] == '=';
    assert s[..k] == "zstd:compression-level";
    IndexOfAt(s, '=', k);
  }

  // ---------------------------------------------------------------------
  // create

  /** `CondaFormat_v2.create(prefix, file_list, out_fn, out_folder,
      compressor, compression_tuple=...)`, with `utils.filter_info_files`
      passed in as `filterInfoFiles`: it is given the file list and the
      prefix and returns the payload files. */
  function Create(
    prefix: string,
    fileList: seq<string>,
    outFn: string,
    outFolder: string,
    compressor: ZstdConfig,
    compressionTuple: CompressionTuple,
    filterInfoFiles: (seq<string>, string) -> seq<string>
  ): (r: CreateOutcome)
    ensures r.Created? <==> SelectCompressor(compressionTuple.filterOpts, compressor).Ok?
    ensures r.Aborted? ==> r.written == [MarkerMember()]
    ensures r.Created? ==> |r.members| == 3 && r.members[0] == MarkerMember()
  {
    var (folder, name) := Place(outFn, outFolder);
    var path := Join(folder, name);
    var fileId := FileId(name);
    var pkgFiles := filterInfoFiles(fileList, prefix);
    var infoFiles := InfoFiles(fileList, pkgFiles);
    match SelectCompressor(compressionTuple.filterOpts, compressor)
    case Err(e) => Aborted(path, [MarkerMember()], InvalidCompressionLevel(e))
    case Ok(z) =>
      Created(path, [
        MarkerMember(),
        Member(ComponentName(Pkg, fileId), TarZst(Listed(pkgFiles), z)),
        Member(ComponentName(Info, fileId), TarZst(Unordered(infoFiles), z))
      ])
  }

  /** Path returned by `create` (also the one left behind when it aborts). */
  function OutcomePath(r: CreateOutcome): string {
    match r
    case Created(p, _) => p
    case Aborted(p, _, _) => p
  }

  // ---------------------------------------------------------------------
  // extract and extract_info

  /** What `extract` hands to the streaming extractor. */
  datatype ExtractCall = ExtractCall(path: string, destDir: string, components: seq<string>)

  /** Why `extract` fails before reaching the extractor: `extract_info`
      called without a destination passes `None` on, and
      `os.path.isdir(None)` raises TypeError; an empty destination is no
      directory, and `os.makedirs("")` raises FileNotFoundError. */
  datatype ExtractError = DestinationIsNone | DestinationIsEmpty

  const DefaultComponents: seq<string> := ["info", "pkg"]

  /** `ensure_list(kw.get("components")) or ("info", "pkg")`, with the keyword
      taken as absent or as a list. */
  function ExtractComponents(components: Option<seq<string>>): (r: seq<string>)
    ensures |r| > 0
    ensures components.Some? && components.value != [] ==> r == components.value
    ensures components.None? || components.value == [] ==>
              r == DefaultComponents && forall c: Component :: ComponentKeyword(c) in r
  {
    if components.Some? && components.value != [] then components.value else DefaultComponents
  }

  /** A relative package path is taken against the working directory and
      normalised; an absolute one is used as given. */
  function ResolvePackagePath(fn: string, cwd: string): (r: string)
    ensures IsAbs(fn) ==> r == fn
    ensures IsAbs(cwd) ==> IsAbs(r)
    ensures !IsAbs(fn) ==> NormPath(r) == r
    ensures IsAbs(cwd) && NormPath(cwd) == cwd && PlainRelative(fn) ==> r == Join(cwd, fn)
    ensures IsAbs(cwd) && NormPath(cwd) == cwd && !IsAbs(fn) && ".." !in SplitOn(fn, "/") ==>
              var named := KeepNamed(SplitOn(fn, "/"));
              r == if named == [] then cwd else Join(cwd, JoinWith(named, "/"))
  {
    if IsAbs(fn) then fn
    else
      var j := Join(cwd, fn);
      NormPathRooted(j);
      NormPathIdempotent(j);
      JoinKeepsRoot(cwd, fn);
      NormPathKeepsPlainJoin(cwd, fn);
      NormPathOfRelativeJoin(cwd, fn);
      NormPath(j)
  }

  /** `CondaFormat_v2.extract(fn, dest_dir, components=...)` up to the call
      into the streaming extractor; `cwd` stands for `os.getcwd()`. */
  function Extract(fn: string, destDir: Option<string>, components: Option<seq<string>>, cwd: string): (r: Result<ExtractCall, ExtractError>)
    ensures r.Ok? <==> destDir.Some? && destDir.value != []
    ensures destDir.None? ==> r == Err(DestinationIsNone)
    ensures r.Ok? ==> r.value.destDir == destDir.value && |r.value.components| > 0
    ensures r.Ok? && components.Some? && components.value != [] ==> r.value.components == components.value
    ensures r.Ok? && (components.None? || components.value == []) ==> r.value.components == DefaultComponents
    ensures r.Ok? && IsAbs(fn) ==> r.value.path == fn
    ensures r.Ok? && !IsAbs(fn) ==> NormPath(r.value.path) == r.value.path
    ensures r.Ok? && IsAbs(cwd) ==> IsAbs(r.value.path)
    ensures r.Ok? && IsAbs(cwd) && NormPath(cwd) == cwd && PlainRelative(fn) ==> r.value.path == Join(cwd, fn)
    ensures r.Ok? && IsAbs(cwd) && NormPath(cwd) == cwd && !IsAbs(fn) && ".." !in SplitOn(fn, "/") ==>
              var named := KeepNamed(SplitOn(fn, "/"));
              r.value.path == if named == [] then cwd else Join(cwd, JoinWith(named, "/"))
  {
    var comps := ExtractComponents(components);
    var path := ResolvePackagePath(fn, cwd);
    match destDir
    case None => Err(DestinationIsNone)
    case Some(d) => if d == [] then Err(DestinationIsEmpty) else Ok(ExtractCall(path, d, comps))
  }

  /** `CondaFormat_v2.extract_info(fn, dest_dir=None)`. */
  function ExtractInfo(fn: string, destDir: Option<string>, cwd: string): (r: Result<ExtractCall, ExtractError>)
    ensures r.Ok? <==> destDir.Some? && destDir.value != []
    ensures destDir.None? ==> r == Err(DestinationIsNone)
    ensures r.Ok? ==> r.value.components == [ComponentKeyword(Info)]
    ensures r.Ok? ==> r.value.destDir == destDir.value && r.value.path == ResolvePackagePath(fn, cwd)
  {
    Extract(fn, destDir, Some(["info"]), cwd)
  }
}

=== FILE: conda_fmt_props.dfy ===
/** What the layout decisions of `CondaFormat` guarantee, stated against
    independent partners: the reader-side recognition of member names, the
    reading back of the version marker and of the level option, and the
    set algebra of the two sections. */
module CondaFormatProperties {
  import opened Wrappers
  import opened PyStr
  import opened PyInt
  import opened PosixPath
  import opened CondaFormat

  // ---------------------------------------------------------------------
  // Format detection

  /** Only a trailing `.conda` makes a name a package of this format: one
      further inside the name counts only if the rest is itself such a
      name. */
  lemma SupportedAppend(a: string, b: string)
    ensures Supported(a + Extension + b) <==> (b == [] || Supported(b))
  {
    var s := a + Extension + b;
    if b == [] {
      assert s == a + Extension;
      assert s[|s| - |Extension|..] == Extension;
    } else if |b| >= |Extension| {
      assert s[|s| - |Extension|..] == b[|b| - |Extension|..];
    } else {
      assert s[|s| - |Extension|] == Extension[|b|];
      assert s[|s| - |Extension|..][0] != Extension[0];
    }
  }

  /** The supported names are exactly the names made of some stem followed
      by the extension. */
  lemma SupportedIsStemPlusExtension(fn: string)
    ensures Supported(fn) <==> exists stem :: fn == stem + Extension
  {
    if Supported(fn) {
      var stem := fn[..|fn| - |Extension|];
      assert fn == stem + fn[|fn| - |Extension|..];
      assert fn == stem + Extension;
    }
    if exists stem :: fn == stem + Extension {
      var stem :| fn == stem + Extension;
      assert fn[|fn| - |Extension|..] == Extension;
    }
  }

  // ---------------------------------------------------------------------
  // file_id

  /** `.conda` cannot overlap itself: its only `.` is its first character.
      So when `a` holds no `.conda`, the first one in `a + ".conda" + b`
      starts right after `a`. */
  lemma NoEarlierOccurrence(a: string, b: string)
    requires !Contains(a, Extension)
    ensures forall i :: 0 <= i < |a| ==> !MatchAt(a + Extension + b, Extension, i)
  {
    var s := a + Extension + b;
    forall i | 0 <= i < |a|
      ensures !MatchAt(s, Extension, i)
    {
      if i + |Extension| <= |a| {
        assert s[i..i + |Extension|] == a[i..i + |Extension|];
        assert !MatchAt(a, Extension, i);
      } else if i + |Extension| <= |s| {
        var k := |a| - i;
        assert 0 < k < |Extension|;
        assert s[i..i + |Extension|][k] == s[|a|] == '.';
        assert Extension[k] != '.';
      }
    }
  }

  /** `file_id` keeps the text before the first `.conda` and goes on
      removing in the rest. */
  lemma FileIdSplit(a: string, b: string)
    requires !Contains(a, Extension)
    ensures FileId(a + Extension + b) == a + FileId(b)
  {
    NoEarlierOccurrence(a, b);
    RemoveAllFirstMatch(a, Extension, b);
  }

  /** A name whose only `.conda` is its extension loses exactly that
      extension. */
  lemma FileIdStripsExtension(stem: string)
    requires !Contains(stem, Extension)
    ensures FileId(stem + Extension) == stem
  {
    FileIdSplit(stem, []);
    assert stem + Extension + [] == stem + Extension;
  }

  /** A name without `.conda` is its own identifier. */
  lemma FileIdOfPlainName(name: string)
    requires !Contains(name, Extension)
    ensures FileId(name) == name
  {
    forall i ensures !MatchAt(name, Extension, i) {
    }
    RemoveAllNoMatch(name, Extension);
  }

  /** `"foo.conda"` has identifier `"foo"`. */
  lemma FileIdOfFoo()
    ensures FileId("foo.conda") == "foo"
  {
    assert "foo.conda" == "foo" + Extension;
    FileIdStripsExtension("foo");
  }

  /** Every `.conda` goes, not just the extension: `"a.conda-b.conda"` has
      identifier `"a-b"`. */
  lemma FileIdRemovesInnerOccurrences()
    ensures FileId("a.conda-b.conda") == "a-b"
  {
    assert "a.conda-b.conda" == "a" + Extension + ("-b" + Extension);
    FileIdSplit("a", "-b" + Extension);
    FileIdStripsExtension("-b");
  }

  // ---------------------------------------------------------------------
  // Output path

  /** The file name the package gets: the basename of an absolute `out_fn`,
      otherwise `out_fn` itself. */
  function PackageName(outFn: string): string {
    if IsAbs(outFn) then Basename(outFn) else outFn
  }

  /** `create` writes to, and returns, `join(out_folder, out_fn)` for a
      relative `out_fn`; for an absolute one the given folder plays no part,
      the result names the same file as `out_fn`, and, when the path has no
      empty component, it is `out_fn` itself. */
  lemma CreatePath(
    prefix: string, fileList: seq<string>, outFn: string, outFolder: string, otherFolder: string,
    compressor: ZstdConfig, tuple: CompressionTuple, filter: (seq<string>, string) -> seq<string>)
    ensures !IsAbs(outFn) ==>
              OutcomePath(Create(prefix, fileList, outFn, outFolder, compressor, tuple, filter)) == Join(outFolder, outFn)
    ensures IsAbs(outFn) ==>
              Create(prefix, fileList, outFn, outFolder, compressor, tuple, filter)
              == Create(prefix, fileList, outFn, otherFolder, compressor, tuple, filter)
    ensures IsAbs(outFn) && !Contains(outFn, "//") ==>
              OutcomePath(Create(prefix, fileList, outFn, outFolder, compressor, tuple, filter)) == outFn
    ensures IsAbs(outFn) ==>
              NormPath(OutcomePath(Create(prefix, fileList, outFn, outFolder, compressor, tuple, filter))) == NormPath(outFn)
  {
    if IsAbs(outFn) && !Contains(outFn, "//") {
      JoinDirnameBasename(outFn);
    }
    PlaceKeepsFile(outFn, outFolder);
  }

  /** The basename of a package name is a package name. */
  lemma BasenameKeepsExtension(p: string)
    requires Supported(p)
    ensures Supported(Basename(p))
  {
    var name := Basename(p);
    var e := |p| - |Extension|;
    assert name[|name| - |Extension|..] == p[e..];
  }

  /** Joining a package name onto a folder gives a package name. */
  lemma JoinKeepsExtension(folder: string, name: string)
    requires Supported(name)
    ensures Supported(Join(folder, name))
  {
    var path := Join(folder, name);
    assert path[|path| - |name|..] == name;
    assert path[|path| - |Extension|..] == name[|name| - |Extension|..];
  }

  /** The returned path still carries the `.conda` extension of `out_fn`,
      and its basename is the package's file name when that has no `/`. */
  lemma CreateKeepsExtension(
    prefix: string, fileList: seq<string>, outFn: string, outFolder: string,
    compressor: ZstdConfig, tuple: CompressionTuple, filter: (seq<string>, string) -> seq<string>)
    ensures Supported(outFn) ==>
              Supported(OutcomePath(Create(prefix, fileList, outFn, outFolder, compressor, tuple, filter)))
    ensures '/' !in PackageName(outFn) ==>
              Basename(OutcomePath(Create(prefix, fileList, outFn, outFolder, compressor, tuple, filter))) == PackageName(outFn)
  {
    var (folder, name) := Place(outFn, outFolder);
    assert name == PackageName(outFn);
    assert OutcomePath(Create(prefix, fileList, outFn, outFolder, compressor, tuple, filter)) == Join(folder, name);
    if Supported(outFn) {
      if IsAbs(outFn) {
        BasenameKeepsExtension(outFn);
      }
      JoinKeepsExtension(folder, name);
    }
    if '/' !in name {
      BasenameOfJoin(folder, name);
    }
  }

  /** A relative `out_fn` that names a sub-directory keeps that directory in
      the section identifier: `"sub/foo.conda"` yields the member
      `"pkg-sub/foo.tar.zst"`, a zip entry inside a directory. */
  lemma RelativeSubdirectoryInMemberNames(
    prefix: string, fileList: seq<string>, dir: string, stem: string, outFolder: string,
    compressor: ZstdConfig, filter: (seq<string>, string) -> seq<string>)
    requires dir != [] && !IsAbs(dir)
    requires !Contains(dir + "/" + stem, Extension)
    ensures Create(prefix, fileList, dir + "/" + stem + Extension, outFolder, compressor, NoCompressionTuple, filter).members[1].name
            == "pkg-" + dir + "/" + stem + SectionExtension
  {
    var id := dir + "/" + stem;
    var outFn := id + Extension;
    assert !IsAbs(outFn) by {
      assert outFn[0] == dir[0];
    }
    RelativePayloadName(prefix, fileList, outFn, outFolder, compressor, filter);
    assert FileId(outFn) == id by {
      FileIdStripsExtension(id);
    }
    PayloadNameSpelled(dir, stem);
  }

  /** The payload member name for a `dir/stem` identifier, spelled out:
      `pkg-`, the directory, a `/`, the stem and the section extension. */
  lemma PayloadNameSpelled(dir: string, stem: string)
    ensures ComponentName(Pkg, dir + "/" + stem) == "pkg-" + dir + "/" + stem + SectionExtension
  {
    var id := dir + "/" + stem;
    assert "pkg" + "-" == "pkg-";
    RegroupJoin("pkg-", dir, "/", stem);
    assert "pkg-" + id == "pkg-" + dir + "/" + stem;
  }

  /** Without a compression tuple, a relative `out_fn` names the payload
      section after its own `file_id`. */
  lemma RelativePayloadName(
    prefix: string, fileList: seq<string>, outFn: string, outFolder: string,
    compressor: ZstdConfig, filter: (seq<string>, string) -> seq<string>)
    requires !IsAbs(outFn)
    ensures var r := Create(prefix, fileList, outFn, outFolder, compressor, NoCompressionTuple, filter);
      r.Created? && r.members[1].name == ComponentName(Pkg, FileId(outFn))
  {
    assert PackageName(outFn) == outFn;
    assert !UsesLevelOption(NoCompressionTuple.filterOpts);
    CreateSections(prefix, fileList, outFn, outFolder, compressor, NoCompressionTuple, filter);
  }

  // ---------------------------------------------------------------------
  // Members

  /** How a reader recognises a section member by name: the kind from the
      `pkg-`/`info-` prefix and the identifier between it and `.tar.zst`. */
  function ComponentOf(name: string): Option<(Component, string)> {
    if |name| >= 4 + |SectionExtension| && StartsWith(name, "pkg-") && EndsWith(name, SectionExtension) then
      Some((Pkg, name[4..|name| - |SectionExtension|]))
    else if |name| >= 5 + |SectionExtension| && StartsWith(name, "info-") && EndsWith(name, SectionExtension) then
      Some((Info, name[5..|name| - |SectionExtension|]))
    else None
  }

  /** Section names are recognised back as the section and identifier they
      were built from, and the marker's name is no section name. */
  lemma ComponentNameRoundTrip(c: Component, id: string)
    ensures ComponentOf(ComponentName(c, id)) == Some((c, id))
    ensures ComponentOf(MetadataName) == None
  {
    var n := ComponentName(c, id);
    var k := ComponentKeyword(c);
    assert n == k + "-" + id + SectionExtension;
    assert n[|n| - |SectionExtension|..] == SectionExtension;
    assert n[|k| + 1..|n| - |SectionExtension|] == id;
    if c == Info {
      assert n[..4] == "info";
    }
    var m := MetadataName;
    assert !StartsWith(m, "pkg-") by { assert m[..4][0] == 'm'; }
    assert !StartsWith(m, "info-") by { assert m[..5][0] == 'm'; }
  }

  /** The files a section member streams, as a set. */
  function SectionFiles(m: Member): set<string> {
    match m.body
    case TarZst(Listed(ps), _) => SetOf(ps)
    case TarZst(Unordered(fs), _) => fs
    case Json(_) => {}
  }

  /** The two sections of a successful `create`, spelled out: the identifier
      comes from the package's file name, the payload holds the filter's
      list, the metadata section the remaining listed files, and both use the
      selected compressor. */
  lemma CreateSections(
    prefix: string, fileList: seq<string>, outFn: string, outFolder: string,
    compressor: ZstdConfig, tuple: CompressionTuple, filter: (seq<string>, string) -> seq<string>)
    requires Create(prefix, fileList, outFn, outFolder, compressor, tuple, filter).Created?
    ensures var ms := Create(prefix, fileList, outFn, outFolder, compressor, tuple, filter).members;
      var id := FileId(PackageName(outFn));
      var pkg := filter(fileList, prefix);
      var z := SelectCompressor(tuple.filterOpts, compressor).value;
      && ms[1] == Member(ComponentName(Pkg, id), TarZst(Listed(pkg), z))
      && ms[2] == Member(ComponentName(Info, id), TarZst(Unordered(InfoFiles(fileList, pkg)), z))
  {
    assert Place(outFn, outFolder).1 == PackageName(outFn);
  }

  /** A successful `create` writes exactly three members: the version
      marker, then the payload section, then the metadata section. Readers
      recognise the two sections by name, with one identifier shared by
      both; the three names are distinct; both sections use the same
      compressor. */
  lemma CreateLayout(
    prefix: string, fileList: seq<string>, outFn: string, outFolder: string,
    compressor: ZstdConfig, tuple: CompressionTuple, filter: (seq<string>, string) -> seq<string>)
    requires Create(prefix, fileList, outFn, outFolder, compressor, tuple, filter).Created?
    ensures var ms := Create(prefix, fileList, outFn, outFolder, compressor, tuple, filter).members;
      && |ms| == 3
      && ms[0].name == MetadataName && ms[0].body.Json?
      && ComponentOf(ms[0].name) == None
      && ComponentOf(ms[1].name) == Some((Pkg, FileId(PackageName(outFn))))
      && ComponentOf(ms[2].name) == Some((Info, FileId(PackageName(outFn))))
      && ms[0].name != ms[1].name && ms[1].name != ms[2].name && ms[0].name != ms[2].name
      && ms[1].body.TarZst? && ms[2].body.TarZst?
      && ms[1].body.compressor == ms[2].body.compressor
  {
    var id := FileId(PackageName(outFn));
    CreateSections(prefix, fileList, outFn, outFolder, compressor, tuple, filter);
    ComponentNameRoundTrip(Pkg, id);
    ComponentNameRoundTrip(Info, id);
  }

  /** The payload section streams the filter's list as returned (order and
      duplicates kept) and the metadata section the remaining listed files,
      as a set: they never share a file, and when the filter keeps to the
      list, together they hold exactly the listed files. */
  lemma CreateSectionsPartition(
    prefix: string, fileList: seq<string>, outFn: string, outFolder: string,
    compressor: ZstdConfig, tuple: CompressionTuple, filter: (seq<string>, string) -> seq<string>)
    requires Create(prefix, fileList, outFn, outFolder, compressor, tuple, filter).Created?
    ensures var ms := Create(prefix, fileList, outFn, outFolder, compressor, tuple, filter).members;
      && ms[1].body.TarZst? && ms[1].body.entries == Listed(filter(fileList, prefix))
      && ms[2].body.TarZst? && ms[2].body.entries.Unordered?
      && SectionFiles(ms[1]) == SetOf(filter(fileList, prefix))
      && SectionFiles(ms[2]) !! SectionFiles(ms[1])
      && SectionFiles(ms[2]) <= SetOf(fileList)
      && (SetOf(filter(fileList, prefix)) <= SetOf(fileList) ==>
            SectionFiles(ms[1]) + SectionFiles(ms[2]) == SetOf(fileList))
  {
    var ms := Create(prefix, fileList, outFn, outFolder, compressor, tuple, filter).members;
    var pkg := filter(fileList, prefix);
    assert ms[1].body.TarZst? && ms[1].body.entries == Listed(pkg)
        && ms[2].body.TarZst? && ms[2].body.entries == Unordered(InfoFiles(fileList, pkg)) by {
      CreateSections(prefix, fileList, outFn, outFolder, compressor, tuple, filter);
    }
    assert SectionFiles(ms[1]) == SetOf(pkg);
    assert SectionFiles(ms[2]) == InfoFiles(fileList, pkg);
  }

  // ---------------------------------------------------------------------
  // Version marker

  const MarkerPrefix: string := "{\"conda_pkg_format_version\": "

  /** Reads the format version back from the marker text. */
  function ReadFormatVersion(text: string): Option<int> {
    if |text| >= |MarkerPrefix| + 1 && StartsWith(text, MarkerPrefix) && EndsWith(text, "}") then
      match ParseInt(text[|MarkerPrefix|..|text| - 1])
      case Ok(v) => Some(v)
      case Err(_) => None
    else None
  }

  /** A text framed by `p` and `s` starts with `p`, ends with `s`, and has
      the framed part between them. */
  lemma Framed(p: string, m: string, s: string)
    ensures StartsWith(p + m + s, p) && EndsWith(p + m + s, s)
    ensures (p + m + s)[|p|..|p + m + s| - |s|] == m
  {
    var t := p + m + s;
    assert t[..|p|] == p;
    assert t[|t| - |s|..] == s;
  }

  /** The marker text reads back as the version it was written with. */
  lemma MarkerRoundTrip(v: int)
    ensures ReadFormatVersion(MetadataJson(v)) == Some(v)
  {
    var m := Show(v);
    Framed(MarkerPrefix, m, "}");
    assert MetadataJson(v) == MarkerPrefix + m + "}";
    ParseShow(v);
  }

  /** Every package's marker member reads back as format version 2. */
  lemma MarkerIsVersionTwo()
    ensures MarkerMember().name == "metadata.json"
    ensures ReadFormatVersion(MarkerMember().body.text) == Some(2)
    ensures MarkerMember().body.text == "{\"conda_pkg_format_version\": 2}"
  {
    MarkerRoundTrip(CondaPackageFormatVersion);
    MarkerTextOfTwo();
  }

  lemma MarkerTextOfTwo()
    ensures MetadataJson(2) == "{\"conda_pkg_format_version\": 2}"
  {
    assert DigitChar(2) == '2';
    assert Show(2) == "2";
  }

  // ---------------------------------------------------------------------
  // Compressor settings

  /** A level written after the prefix is the level the compressor gets,
      with the default single thread. */
  lemma LevelOptionRoundTrip(n: int, compressor: ZstdConfig)
    ensures SelectCompressor(Some(LevelOptionPrefix + Show(n)), compressor) == Ok(ZstdConfig(n, ZstdCompressThreads))
  {
    var s := LevelOptionPrefix + Show(n);
    assert s[..|LevelOptionPrefix|] == LevelOptionPrefix;
    assert s[|LevelOptionPrefix|..] == Show(n);
    ParseShow(n);
  }

  /** The published default tuple selects the same compressor as the
      default `compressor` argument: level 22, one thread. */
  lemma DefaultTupleMatchesDefaultCompressor(compressor: ZstdConfig)
    ensures SelectCompressor(DefaultCompressionTuple.filterOpts, compressor) == Ok(DefaultCompressor)
  {
    assert Show(22) == "22";
    assert DefaultCompressionTuple.filterOpts.value == LevelOptionPrefix + Show(22);
    LevelOptionRoundTrip(22, compressor);
  }

  /** An option with no level after the prefix makes `create` stop after
      writing only the marker. */
  lemma MissingLevelAborts(
    prefix: string, fileList: seq<string>, outFn: string, outFolder: string,
    compressor: ZstdConfig, filter: (seq<string>, string) -> seq<string>)
    ensures var r := Create(prefix, fileList, outFn, outFolder, compressor,
                            CompressionTuple(None, None, Some(LevelOptionPrefix)), filter);
            r.Aborted? && r.written == [MarkerMember()]
  {
    var s := LevelOptionPrefix;
    assert s[..|LevelOptionPrefix|] == LevelOptionPrefix;
    assert s[|LevelOptionPrefix|..] == [];
    assert Strip([]) == [];
  }

  /** A level padded with the ASCII separator U+001C, which `int()` does not
      strip although `str.isspace()` accepts it, makes `create` stop after
      the marker. */
  lemma SeparatorPaddedLevelAborts(
    prefix: string, fileList: seq<string>, outFn: string, outFolder: string,
    compressor: ZstdConfig, filter: (seq<string>, string) -> seq<string>, n: int)
    ensures var r := Create(prefix, fileList, outFn, outFolder, compressor,
                            CompressionTuple(None, None, Some(LevelOptionPrefix + ("\U{001C}" + Show(n)))), filter);
            r.Aborted? && r.written == [MarkerMember()]
  {
    SeparatorPaddedLevelRejected(n, compressor);
  }

  /** The compressor selection rejects a level padded with U+001C. */
  lemma SeparatorPaddedLevelRejected(n: int, compressor: ZstdConfig)
    ensures SelectCompressor(Some(LevelOptionPrefix + ("\U{001C}" + Show(n))), compressor).Err?
  {
    var bad := "\U{001C}" + Show(n);
    LeadingJunkRejected('\U{001C}', Show(n));
    var s := LevelOptionPrefix + bad;
    assert s[..|LevelOptionPrefix|] == LevelOptionPrefix;
    assert s[|LevelOptionPrefix|..] == bad;
  }

  /** A level padded with a space is read as the level. */
  lemma SpacePaddedLevelRead(n: int, compressor: ZstdConfig)
    ensures SelectCompressor(Some(LevelOptionPrefix + (" " + Show(n))), compressor) == Ok(ZstdConfig(n, ZstdCompressThreads))
  {
    var good := " " + Show(n);
    var s := LevelOptionPrefix + good;
    assert UsesLevelOption(Some(s)) && s[|LevelOptionPrefix|..] == good by {
      assert s[..|LevelOptionPrefix|] == LevelOptionPrefix;
    }
    assert ParseInt(good) == Ok(n) by {
      ParseShow(n);
      LeadingSpaceIgnored(' ', Show(n));
    }
  }

  // ---------------------------------------------------------------------
  // Extraction

  /** Without a `components` keyword, or with an empty one, both sections
      are extracted; `extract_info` asks for the metadata section only. A
      missing or empty destination stops before the extractor is called. */
  lemma ExtractComponentDefaults(fn: string, dest: string, cwd: string)
    requires dest != []
    ensures Extract(fn, Some(dest), None, cwd) == Extract(fn, Some(dest), Some([]), cwd)
    ensures Extract(fn, Some(dest), None, cwd).value.components == [ComponentKeyword(Info), ComponentKeyword(Pkg)]
    ensures ExtractInfo(fn, Some(dest), cwd).value.components == [ComponentKeyword(Info)]
    ensures ExtractInfo(fn, None, cwd) == Err(DestinationIsNone)
    ensures Extract(fn, Some(""), None, cwd) == Err(DestinationIsEmpty)
  {
  }
}

=== FILE: posixpath.dfy ===
/** Python's `posixpath` functions used to place and locate a package file:
    `isabs`, `basename`, `dirname`, `join` (with two arguments) and
    `normpath`. Paths are plain strings; nothing here touches a file
    system. */
module PosixPath {
  import opened Wrappers
  import opened PyStr

  /** `os.path.isabs(p)`. */
  predicate IsAbs(p: string) {
    StartsWith(p, "/")
  }

  /** Index of the last `c` in `s` (Python's `s.rfind(c)`), if any. */
  function RFind(s: string, c: char): (r: Option<nat>)
    ensures r.None? <==> c !in s
    ensures r.Some? ==> r.value < |s| && s[r.value] == c && c !in s[r.value + 1..]
  {
    if |s| == 0 then None
    else if s[|s| - 1] == c then Some(|s| - 1)
    else
      assert s == s[..|s| - 1] + [s[|s| - 1]];
      RFind(s[..|s| - 1], c)
  }

  /** Where the last path component starts: just after the last `/`. */
  function TailStart(p: string): (k: nat)
    ensures k <= |p|
  {
    match RFind(p, '/')
    case None => 0
    case Some(i) => i + 1
  }

  /** `os.path.basename(p)`: the text after the last `/`. */
  function Basename(p: string): (r: string)
    ensures '/' !in r
    ensures EndsWith(p, r)
    ensures |r| == |p| || p[|p| - |r| - 1] == '/'
  {
    p[TailStart(p)..]
  }

  /** Every character of `s` is `c`. */
  predicate AllChar(s: string, c: char) {
    forall i :: 0 <= i < |s| ==> s[i] == c
  }

  /** Python's `s.rstrip(c)` for a single character. */
  function RStripChar(s: string, c: char): (r: string)
    ensures |r| <= |s| && r == s[..|r|]
    ensures |r| == 0 || r[|r| - 1] != c
    ensures forall i :: |r| <= i < |s| ==> s[i] == c
  {
    if |s| > 0 && s[|s| - 1] == c then RStripChar(s[..|s| - 1], c) else s
  }

  /** `os.path.dirname(p)`: everything up to the last `/`, with the trailing
      slashes removed unless the head consists of slashes only. */
  function Dirname(p: string): string {
    var head := p[..TailStart(p)];
    if head != [] && !AllChar(head, '/') then RStripChar(head, '/') else head
  }

  /** `os.path.join(a, b)`: an absolute `b` replaces `a`; otherwise `b` is
      appended, with a `/` between unless `a` is empty or already ends in
      one. */
  function Join(a: string, b: string): (r: string)
    ensures EndsWith(r, b)
    ensures IsAbs(b) ==> r == b
    ensures !IsAbs(b) ==> StartsWith(r, a)
    ensures !IsAbs(b) ==> |r| >= |a| + |b| && r[|a|..|r| - |b|] == (if a == [] || EndsWith(a, "/") then "" else "/")
  {
    if StartsWith(b, "/") then b
    else if a == [] || EndsWith(a, "/") then a + b
    else a + "/" + b
  }

  /** Joining onto an absolute path gives an absolute path. */
  lemma JoinKeepsRoot(a: string, b: string)
    ensures IsAbs(a) ==> IsAbs(Join(a, b))
  {
    if IsAbs(a) && !IsAbs(b) {
      assert Join(a, b)[0] == a[0];
    }
  }

  // ---------------------------------------------------------------------
  // normpath

  /** How many leading slashes `normpath` keeps: POSIX gives a path that
      starts with exactly two slashes an implementation-defined meaning, so
      those two are kept; one, or three and more, collapse to one. */
  function InitialSlashes(p: string): (k: nat)
    ensures k <= 2
    ensures k > 0 <==> IsAbs(p)
  {
    if StartsWith(p, "//") && !StartsWith(p, "///") then 2
    else if StartsWith(p, "/") then 1
    else 0
  }

  /** One step of `normpath`'s component loop: drop empty and `.` parts,
      and let `..` cancel the previous part when there is one to cancel. */
  function NormStep(acc: seq<string>, comp: string, rooted: bool): seq<string> {
    if comp == "" || comp == "." then acc
    else if comp != ".." || (!rooted && acc == []) || (acc != [] && Last(acc) == "..") then acc + [comp]
    else if acc != [] then acc[..|acc| - 1]
    else acc
  }

  /** The component loop of `normpath`, from left to right. */
  function NormComps(acc: seq<string>, comps: seq<string>, rooted: bool): seq<string>
    decreases |comps|
  {
    if comps == [] then acc else NormComps(NormStep(acc, comps[0], rooted), comps[1..], rooted)
  }

  function Empties(k: nat): (r: seq<string>)
    ensures |r| == k
  {
    if k == 0 then [] else [""] + Empties(k - 1)
  }

  function Slashes(k: nat): (r: string)
    ensures |r| == k && AllChar(r, '/')
  {
    if k == 0 then "" else "/" + Slashes(k - 1)
  }

  /** `os.path.normpath(p)`. */
  function NormPath(p: string): string {
    if p == [] then "."
    else
      var k := InitialSlashes(p);
      var r := Slashes(k) + JoinWith(NormComps([], SplitOn(p, "/"), k > 0), "/");
      if r == [] then "." else r
  }

  // ---------------------------------------------------------------------
  // Normal component lists: what normpath's loop produces

  predicate CleanComp(c: string) {
    c != "" && c != "." && '/' !in c
  }

  /** A component list `normpath` can produce: no empty, `.` or `/`-holding
      parts; under a root no `..`; otherwise `..` only as a leading run. */
  predicate Normal(cs: seq<string>, rooted: bool) {
    && (forall k :: 0 <= k < |cs| ==> CleanComp(cs[k]))
    && (rooted ==> forall k :: 0 <= k < |cs| ==> cs[k] != "..")
    && (forall i, j :: 0 <= i < j < |cs| && cs[j] == ".." ==> cs[i] == "..")
  }

  lemma NormStepNormal(acc: seq<string>, comp: string, rooted: bool)
    requires Normal(acc, rooted) && '/' !in comp
    ensures Normal(NormStep(acc, comp, rooted), rooted)
  {
    var r := NormStep(acc, comp, rooted);
    if comp == "" || comp == "." {
    } else if comp != ".." || (!rooted && acc == []) || (acc != [] && Last(acc) == "..") {
      assert r == acc + [comp];
      if comp == ".." && acc != [] {
        forall i | 0 <= i < |acc| ensures acc[i] == ".." {
          if i < |acc| - 1 {
            assert acc[|acc| - 1] == "..";
          }
        }
      }
    } else if acc != [] {
      assert r == acc[..|acc| - 1];
    }
  }

  lemma {:induction false} NormCompsNormal(acc: seq<string>, comps: seq<string>, rooted: bool)
    requires Normal(acc, rooted)
    requires forall k :: 0 <= k < |comps| ==> '/' !in comps[k]
    ensures Normal(NormComps(acc, comps, rooted), rooted)
    decreases |comps|
  {
    if comps != [] {
      NormStepNormal(acc, comps[0], rooted);
      NormCompsNormal(NormStep(acc, comps[0], rooted), comps[1..], rooted);
    }
  }

  /** The loop leaves an already normal list alone. */
  lemma {:induction false} NormCompsOfNormal(acc: seq<string>, cs: seq<string>, rooted: bool)
    requires Normal(acc + cs, rooted)
    ensures NormComps(acc, cs, rooted) == acc + cs
    decreases |cs|
  {
    if cs != [] {
      var c := cs[0];
      assert (acc + cs)[|acc|] == c;
      assert CleanComp(c);
      if c == ".." && acc != [] {
        assert (acc + cs)[|acc| - 1] == "..";
      }
      assert NormStep(acc, c, rooted) == acc + [c];
      assert acc + [c] + cs[1..] == acc + cs;
      NormCompsOfNormal(acc + [c], cs[1..], rooted);
    }
  }

  /** Empty components are skipped. */
  lemma {:induction false} NormCompsSkipsEmpty(acc: seq<string>, n: nat, rest: seq<string>, rooted: bool)
    ensures NormComps(acc, Empties(n) + rest, rooted) == NormComps(acc, rest, rooted)
    decreases n
  {
    var s := Empties(n) + rest;
    if n == 0 {
      assert s == rest;
    } else {
      assert s == [""] + (Empties(n - 1) + rest);
      assert s[0] == "" && s[1..] == Empties(n - 1) + rest;
      NormCompsSkipsEmpty(acc, n - 1, rest, rooted);
    }
  }

  /** The loop over a concatenation runs over the first list, then the
      second. */
  lemma {:induction false} NormCompsAppend(acc: seq<string>, xs: seq<string>, ys: seq<string>, rooted: bool)
    ensures NormComps(acc, xs + ys, rooted) == NormComps(NormComps(acc, xs, rooted), ys, rooted)
    decreases |xs|
  {
    if xs == [] {
      assert xs + ys == ys;
    } else {
      assert (xs + ys)[0] == xs[0];
      assert (xs + ys)[1..] == xs[1..] + ys;
      NormCompsAppend(NormStep(acc, xs[0], rooted), xs[1..], ys, rooted);
    }
  }

  /** The components `normpath` keeps from a list without `..`: all but the
      empty and `.` ones, in their order. */
  function KeepNamed(cs: seq<string>): (r: seq<string>)
    ensures forall c :: c in r <==> c in cs && c != "" && c != "."
  {
    if cs == [] then []
    else (if cs[0] == "" || cs[0] == "." then [] else [cs[0]]) + KeepNamed(cs[1..])
  }

  /** Without a `..`, the loop only drops the empty and `.` components. */
  lemma {:induction false} NormCompsOfNamed(acc: seq<string>, comps: seq<string>, rooted: bool)
    requires ".." !in comps
    ensures NormComps(acc, comps, rooted) == acc + KeepNamed(comps)
    decreases |comps|
  {
    if comps == [] {
      assert acc + [] == acc;
    } else {
      var c := comps[0];
      var rest := comps[1..];
      var next := NormStep(acc, c, rooted);
      var kept := if c == "" || c == "." then [] else [c];
      assert ".." !in rest by {
        assert forall i :: 0 <= i < |rest| ==> rest[i] == comps[i + 1];
      }
      assert next == acc + kept by {
        assert c != "..";
      }
      assert KeepNamed(comps) == kept + KeepNamed(rest);
      NormCompsOfNamed(next, rest, rooted);
      RegroupAppend(acc, kept, KeepNamed(rest));
    }
  }

  /** The kept components of a split path form a normal rooted list. */
  lemma KeepNamedNormal(cs: seq<string>)
    requires ".." !in cs
    requires forall k :: 0 <= k < |cs| ==> '/' !in cs[k]
    ensures Normal(KeepNamed(cs), true)
  {
    var r := KeepNamed(cs);
    forall k | 0 <= k < |r| ensures CleanComp(r[k]) && r[k] != ".." {
      assert r[k] in r;
      var i :| 0 <= i < |cs| && cs[i] == r[k];
    }
  }

  /** Splitting `n` leading slashes off yields `n` empty pieces. */
  lemma {:induction false} SplitLeadingSlashes(n: nat, j: string)
    ensures SplitOn(Slashes(n) + j, "/") == Empties(n) + SplitOn(j, "/")
    decreases n
  {
    if n == 0 {
      assert Slashes(n) == [];
      assert Slashes(n) + j == j;
      assert Empties(n) == [];
      assert Empties(n) + SplitOn(j, "/") == SplitOn(j, "/");
    } else {
      var s := Slashes(n) + j;
      var rest := Slashes(n - 1) + j;
      var tail := SplitOn(j, "/");
      assert s[..1] == "/" && s[1..] == rest by {
        assert Slashes(n) == "/" + Slashes(n - 1);
        RegroupAppend("/", Slashes(n - 1), j);
      }
      assert SplitOn(s, "/") == [""] + SplitOn(rest, "/");
      SplitLeadingSlashes(n - 1, j);
      assert Empties(n) == [""] + Empties(n - 1);
      RegroupAppend([""], Empties(n - 1), tail);
    }
  }

  /** Splitting the join of a normal list and running the loop again gives
      the list back. */
  lemma NormCompsOfJoin(cs: seq<string>, rooted: bool)
    requires Normal(cs, rooted)
    ensures NormComps([], SplitOn(JoinWith(cs, "/"), "/"), rooted) == cs
  {
    if cs == [] {
      assert SplitOn("", "/") == [""];
    } else {
      SplitOfJoin(cs, '/');
      NormCompsOfNormal([], cs, rooted);
    }
  }

  /** The joined components never start with a slash. */
  lemma JoinedNotRooted(cs: seq<string>, rooted: bool)
    requires Normal(cs, rooted)
    ensures !StartsWith(JoinWith(cs, "/"), "/")
  {
    if |cs| == 1 {
      assert cs[0][0] in cs[0];
    } else if |cs| > 1 {
      assert JoinWith(cs, "/")[0] == cs[0][0];
      assert cs[0][0] in cs[0];
    }
  }

  /** The pieces of `normpath`'s result: `k` slashes and a normal list. */
  lemma NormPathShape(p: string)
    requires p != []
    ensures Normal(NormComps([], SplitOn(p, "/"), InitialSlashes(p) > 0), InitialSlashes(p) > 0)
  {
    SplitPiecesFree(p, '/');
    NormCompsNormal([], SplitOn(p, "/"), InitialSlashes(p) > 0);
  }

  // ---------------------------------------------------------------------
  // Properties

  /** `normpath` keeps a path absolute or relative, and never returns the
      empty string. */
  lemma NormPathRooted(p: string)
    ensures NormPath(p) != []
    ensures IsAbs(NormPath(p)) <==> IsAbs(p)
  {
    if p != [] {
      var k := InitialSlashes(p);
      var cs := NormComps([], SplitOn(p, "/"), k > 0);
      NormPathShape(p);
      JoinedNotRooted(cs, k > 0);
    }
  }

  /** `normpath` is idempotent: a normalised path is its own normal form. */
  lemma NormPathIdempotent(p: string)
    ensures NormPath(NormPath(p)) == NormPath(p)
  {
    if p == [] {
      NormPathOfDot();
    } else {
      var k := InitialSlashes(p);
      var cs := NormComps([], SplitOn(p, "/"), k > 0);
      NormPathShape(p);
      var r := Slashes(k) + JoinWith(cs, "/");
      if r == [] {
        assert NormPath(p) == ".";
        NormPathOfDot();
      } else {
        assert NormPath(p) == r;
        NormPathOfShape(k, cs);
      }
    }
  }

  /** `.` is its own normal form. */
  lemma NormPathOfDot()
    ensures NormPath(".") == "."
  {
    var dot := ".";
    assert dot[..1] != "/" && dot[1..] == "";
    assert SplitOn(dot[1..], "/") == [""];
    assert [dot[0]] + "" == dot;
    assert SplitOn(dot, "/") == [dot];
  }

  /** A non-empty path built from up to two slashes and a normal list for
      that kind of path is its own normal form. */
  lemma NormPathOfShape(k: nat, cs: seq<string>)
    requires k <= 2 && Normal(cs, k > 0) && Slashes(k) + JoinWith(cs, "/") != []
    ensures NormPath(Slashes(k) + JoinWith(cs, "/")) == Slashes(k) + JoinWith(cs, "/")
  {
    var j := JoinWith(cs, "/");
    var r := Slashes(k) + j;
    JoinedNotRooted(cs, k > 0);
    if k == 0 {
      assert r == j;
      assert !StartsWith(r, "/");
    } else {
      InitialSlashesOfNormalForm(k, cs);
    }
    assert InitialSlashes(r) == k;
    SplitLeadingSlashes(k, j);
    NormCompsSkipsEmpty([], k, SplitOn(j, "/"), k > 0);
    NormCompsOfJoin(cs, k > 0);
  }

  /** A rooted path built from one or two slashes and a normal component
      list is its own normal form. */
  lemma NormPathOfNormalForm(k: nat, cs: seq<string>)
    requires 1 <= k <= 2 && Normal(cs, true)
    ensures NormPath(Slashes(k) + JoinWith(cs, "/")) == Slashes(k) + JoinWith(cs, "/")
  {
    var r := Slashes(k) + JoinWith(cs, "/");
    InitialSlashesOfNormalForm(k, cs);
    NormCompsOfNormalForm(k, cs);
    assert r != [];
  }

  /** The leading slashes of such a path are exactly the `k` it starts with. */
  lemma InitialSlashesOfNormalForm(k: nat, cs: seq<string>)
    requires 1 <= k <= 2 && Normal(cs, true)
    ensures InitialSlashes(Slashes(k) + JoinWith(cs, "/")) == k
  {
    var j := JoinWith(cs, "/");
    var r := Slashes(k) + j;
    JoinedNotRooted(cs, true);
    if k == 2 {
      assert r[..2] == "//";
      if |r| >= 3 { assert r[2] == j[0]; }
    } else {
      assert r[..1] == "/";
      if |r| >= 2 { assert r[1] == j[0]; }
    }
  }

  /** Text after a run of one or two slashes does not change how many
      leading slashes count once it starts with another character. */
  lemma InitialSlashesBeforeName(k: nat, z: string)
    requires 1 <= k <= 2 && z != [] && z[0] != '/'
    ensures InitialSlashes(Slashes(k) + z) == k
  {
    var r := Slashes(k) + z;
    if k == 2 {
      assert r[..2] == "//";
      assert r[2] == z[0];
    } else {
      assert r[..1] == "/";
      assert r[1] == z[0];
    }
  }

  /** Once a path has a character other than `/`, appending text does not
      change its leading slashes. */
  lemma InitialSlashesOfExtension(s: string, t: string)
    requires !AllChar(s, '/')
    ensures InitialSlashes(s + t) == InitialSlashes(s)
  {
    var u := s + t;
    if |s| >= 3 {
      assert u[..1] == s[..1] && u[..2] == s[..2] && u[..3] == s[..3];
    } else if |s| == 2 {
      assert u[..1] == s[..1] && u[..2] == s[..2];
      assert s != "//";
    } else {
      assert s[0] != '/';
      assert u[0] == s[0];
    }
  }

  /** `normpath`'s loop gives back the components of such a path. */
  lemma NormCompsOfNormalForm(k: nat, cs: seq<string>)
    requires 1 <= k <= 2 && Normal(cs, true)
    ensures NormComps([], SplitOn(Slashes(k) + JoinWith(cs, "/"), "/"), true) == cs
  {
    var j := JoinWith(cs, "/");
    SplitLeadingSlashes(k, j);
    NormCompsSkipsEmpty([], k, SplitOn(j, "/"), true);
    NormCompsOfJoin(cs, true);
  }

  /** A relative path all of whose components are plain names: no empty
      component, no `.` and no `..`. */
  predicate PlainRelative(p: string) {
    forall k :: 0 <= k < |SplitOn(p, "/")| ==> CleanComp(SplitOn(p, "/")[k]) && SplitOn(p, "/")[k] != ".."
  }

  /** A normalised absolute path is one or two slashes followed by a normal
      component list. */
  lemma NormalFormOfRooted(p: string)
    requires IsAbs(p) && NormPath(p) == p
    ensures var cs := NormComps([], SplitOn(p, "/"), true);
      && Normal(cs, true)
      && p == Slashes(InitialSlashes(p)) + JoinWith(cs, "/")
  {
    NormPathShape(p);
  }

  /** The components of a plain relative path form a normal list that
      joins back to the path, which does not start with `/`. */
  lemma PlainRelativeNormal(fn: string)
    requires PlainRelative(fn)
    ensures Normal(SplitOn(fn, "/"), true)
    ensures JoinWith(SplitOn(fn, "/"), "/") == fn
    ensures !StartsWith(fn, "/")
  {
    var fcs := SplitOn(fn, "/");
    JoinOfSplit(fn, "/");
    assert CleanComp(fcs[0]);
  }

  /** A normal non-empty list does not join into a text ending in `/`. */
  lemma JoinedNoTrailingSlash(cs: seq<string>)
    requires cs != [] && Normal(cs, true)
    ensures !EndsWith(JoinWith(cs, "/"), "/")
  {
    JoinWithEndsWithLast(cs, "/");
    var c := JoinWith(cs, "/");
    var l := Last(cs);
    assert CleanComp(l);
    assert l[|l| - 1] in l;
    assert c[|c| - 1] == l[|l| - 1];
  }

  /** Two normal rooted lists concatenate into a normal rooted list. */
  lemma NormalAppend(xs: seq<string>, ys: seq<string>)
    requires Normal(xs, true) && Normal(ys, true)
    ensures Normal(xs + ys, true)
  {
    var all := xs + ys;
    forall i | 0 <= i < |all| ensures CleanComp(all[i]) && all[i] != ".." {
      if i >= |xs| {
        assert all[i] == ys[i - |xs|];
      }
    }
  }

  /** A plain relative path joined onto `/` or `//` is in normal form. */
  lemma JoinOntoSlashesNormal(k: nat, fn: string)
    requires 1 <= k <= 2 && PlainRelative(fn)
    ensures NormPath(Join(Slashes(k), fn)) == Join(Slashes(k), fn)
  {
    var fcs := SplitOn(fn, "/");
    PlainRelativeNormal(fn);
    assert Join(Slashes(k), fn) == Slashes(k) + JoinWith(fcs, "/") by {
      JoinOntoRoot(k, fn);
    }
    NormPathOfNormalForm(k, fcs);
  }

  /** A plain relative path joined onto a normal folder below the root is
      in normal form. */
  lemma JoinOntoFolderNormal(k: nat, cs: seq<string>, fn: string)
    requires 1 <= k <= 2 && cs != [] && Normal(cs, true) && PlainRelative(fn)
    ensures NormPath(Join(Slashes(k) + JoinWith(cs, "/"), fn)) == Join(Slashes(k) + JoinWith(cs, "/"), fn)
  {
    var fcs := SplitOn(fn, "/");
    PlainRelativeNormal(fn);
    var c := JoinWith(cs, "/");
    var cwd := Slashes(k) + c;
    JoinedNoTrailingSlash(cs);
    assert !EndsWith(cwd, "/") by {
      assert cwd[|cwd| - 1] == c[|c| - 1];
    }
    var joined := Join(cwd, fn);
    assert joined == (cwd + "/") + fn;
    JoinWithAppend(cs, fcs, "/");
    var full := JoinWith(cs + fcs, "/");
    assert full == (c + "/") + fn;
    RegroupJoin(Slashes(k), c, "/", fn);
    assert joined == Slashes(k) + full;
    NormalAppend(cs, fcs);
    NormPathOfNormalForm(k, cs + fcs);
  }

  /** Joining a plain relative path onto a normalised absolute folder gives
      a path that `normpath` leaves unchanged. */
  lemma NormPathKeepsPlainJoin(cwd: string, fn: string)
    ensures IsAbs(cwd) && NormPath(cwd) == cwd && PlainRelative(fn) ==> NormPath(Join(cwd, fn)) == Join(cwd, fn)
  {
    if IsAbs(cwd) && NormPath(cwd) == cwd && PlainRelative(fn) {
      var k := InitialSlashes(cwd);
      var cs := NormComps([], SplitOn(cwd, "/"), true);
      NormalFormOfRooted(cwd);
      if cs == [] {
        assert cwd == Slashes(k);
        JoinOntoSlashesNormal(k, fn);
      } else {
        JoinOntoFolderNormal(k, cs, fn);
      }
    }
  }

  /** A relative path without `..` after one or two slashes normalises to
      its kept components under that root. */
  lemma NormPathUnderRoot(k: nat, fn: string)
    requires 1 <= k <= 2 && fn != [] && fn[0] != '/' && ".." !in SplitOn(fn, "/")
    ensures NormPath(Slashes(k) + fn) == Slashes(k) + JoinWith(KeepNamed(SplitOn(fn, "/")), "/")
  {
    var comps := SplitOn(fn, "/");
    var named := KeepNamed(comps);
    InitialSlashesBeforeName(k, fn);
    SplitLeadingSlashes(k, fn);
    NormCompsSkipsEmpty([], k, comps, true);
    NormCompsOfNamed([], comps, true);
    assert [] + named == named;
    assert NormComps([], SplitOn(Slashes(k) + fn, "/"), true) == named;
  }

  /** The empty relative path joined onto `/` or `//` leaves the root. */
  lemma RootEmptyJoin(k: nat)
    requires 1 <= k <= 2
    ensures KeepNamed(SplitOn([], "/")) == []
    ensures NormPath(Join(Slashes(k), [])) == Slashes(k)
  {
    var none: seq<string> := [""];
    assert SplitOn([], "/") == none;
    assert none[1..] == [];
    assert KeepNamed(none) == [] + KeepNamed(none[1..]);
    assert Join(Slashes(k), []) == Slashes(k) by {
      assert Slashes(k)[k - 1] == '/';
    }
    NormPathOfNormalForm(k, []);
    assert Slashes(k) + JoinWith([], "/") == Slashes(k);
  }

  /** A relative path joined onto `/` or `//` is appended to it. */
  lemma JoinOntoRoot(k: nat, x: string)
    requires 1 <= k <= 2 && !IsAbs(x)
    ensures Join(Slashes(k), x) == Slashes(k) + x
  {
    assert Slashes(k)[k - 1] == '/';
  }

  /** The kept components of a path without `..` are joined into a
      relative path. */
  lemma NamedNotRooted(fn: string)
    requires ".." !in SplitOn(fn, "/")
    ensures !IsAbs(JoinWith(KeepNamed(SplitOn(fn, "/")), "/"))
  {
    var comps := SplitOn(fn, "/");
    SplitPiecesFree(fn, '/');
    KeepNamedNormal(comps);
    JoinedNotRooted(KeepNamed(comps), true);
  }

  /** A relative path with at least one kept component joined onto `/`
      or `//` is that root with the kept components under it. */
  lemma RootNamedJoin(k: nat, fn: string)
    requires 1 <= k <= 2 && fn != [] && !IsAbs(fn) && ".." !in SplitOn(fn, "/")
    ensures var named := KeepNamed(SplitOn(fn, "/"));
      NormPath(Join(Slashes(k), fn)) == Join(Slashes(k), JoinWith(named, "/"))
  {
    var tail := JoinWith(KeepNamed(SplitOn(fn, "/")), "/");
    var root := Slashes(k);
    assert fn[0] != '/' by {
      assert fn[..1] == [fn[0]];
    }
    NamedNotRooted(fn);
    JoinOntoRoot(k, fn);
    JoinOntoRoot(k, tail);
    NormPathUnderRoot(k, fn);
  }

  /** A non-empty relative path whose components are all empty or `.`
      joined onto `/` or `//` leaves the root. */
  lemma RootUnnamedJoin(k: nat, fn: string)
    requires 1 <= k <= 2 && fn != [] && !IsAbs(fn) && ".." !in SplitOn(fn, "/")
    requires KeepNamed(SplitOn(fn, "/")) == []
    ensures NormPath(Join(Slashes(k), fn)) == Slashes(k)
  {
    assert fn[0] != '/' by {
      assert fn[..1] == [fn[0]];
    }
    JoinOntoRoot(k, fn);
    NormPathUnderRoot(k, fn);
    assert Slashes(k) + JoinWith([], "/") == Slashes(k);
  }

  /** A relative path without `..` joined onto `/` or `//` normalises to
      its kept components under that root. */
  lemma RootRelativeJoin(k: nat, fn: string)
    requires 1 <= k <= 2 && !IsAbs(fn) && ".." !in SplitOn(fn, "/")
    ensures var named := KeepNamed(SplitOn(fn, "/"));
      NormPath(Join(Slashes(k), fn)) == if named == [] then Slashes(k) else Join(Slashes(k), JoinWith(named, "/"))
  {
    if fn == [] {
      RootEmptyJoin(k);
    } else if KeepNamed(SplitOn(fn, "/")) == [] {
      RootUnnamedJoin(k, fn);
    } else {
      RootNamedJoin(k, fn);
    }
  }

  /** `normpath`'s loop over a normal folder below the root, a `/` and a
      relative path without `..` keeps the folder and the kept components. */
  lemma NormCompsUnderFolder(k: nat, cs: seq<string>, fn: string)
    requires 1 <= k <= 2 && cs != [] && Normal(cs, true) && ".." !in SplitOn(fn, "/")
    ensures NormComps([], SplitOn(Slashes(k) + ((JoinWith(cs, "/") + "/") + fn), "/"), true)
            == cs + KeepNamed(SplitOn(fn, "/"))
  {
    var comps := SplitOn(fn, "/");
    var c := JoinWith(cs, "/");
    SplitLeadingSlashes(k, (c + "/") + fn);
    SplitAppend(c, '/', fn);
    SplitOfJoin(cs, '/');
    NormCompsSkipsEmpty([], k, cs + comps, true);
    NormCompsAppend([], cs, comps, true);
    assert [] + cs == cs;
    NormCompsOfNormal([], cs, true);
    NormCompsOfNamed(cs, comps, true);
  }

  /** A normal folder below the root, joined with a relative path without
      `..`, normalises to the folder followed by the kept components. */
  lemma NormPathUnderFolder(k: nat, cs: seq<string>, fn: string)
    requires 1 <= k <= 2 && cs != [] && Normal(cs, true)
    requires !IsAbs(fn) && ".." !in SplitOn(fn, "/")
    ensures NormPath(Join(Slashes(k) + JoinWith(cs, "/"), fn))
            == Slashes(k) + JoinWith(cs + KeepNamed(SplitOn(fn, "/")), "/")
  {
    var joined := Join(Slashes(k) + JoinWith(cs, "/"), fn);
    JoinOntoFolderShape(k, cs, fn);
    NormCompsUnderFolder(k, cs, fn);
    NormPathByParts(joined, k, cs + KeepNamed(SplitOn(fn, "/")));
  }

  /** Joining a relative path onto a normal folder below the root puts one
      `/` between them and keeps the folder's leading slashes. */
  lemma JoinOntoFolderShape(k: nat, cs: seq<string>, fn: string)
    requires 1 <= k <= 2 && cs != [] && Normal(cs, true) && !IsAbs(fn)
    ensures var c := JoinWith(cs, "/");
      var joined := Join(Slashes(k) + c, fn);
      joined == Slashes(k) + ((c + "/") + fn) && InitialSlashes(joined) == k
  {
    var c := JoinWith(cs, "/");
    var cwd := Slashes(k) + c;
    var joined := Join(cwd, fn);
    FolderShape(k, cs);
    assert joined == (cwd + "/") + fn;
    assert InitialSlashes(joined) == k by {
      InitialSlashesOfExtension(cwd, "/" + fn);
      RegroupAppend(cwd, "/", fn);
    }
    assert joined == Slashes(k) + ((c + "/") + fn) by {
      RegroupJoin(Slashes(k), c, "/", fn);
    }
  }

  /** A normal folder below the root does not end in `/`, has a character
      other than `/`, and starts with its `k` slashes. */
  lemma FolderShape(k: nat, cs: seq<string>)
    requires 1 <= k <= 2 && cs != [] && Normal(cs, true)
    ensures var cwd := Slashes(k) + JoinWith(cs, "/");
      !EndsWith(cwd, "/") && !AllChar(cwd, '/') && InitialSlashes(cwd) == k
  {
    var c := JoinWith(cs, "/");
    var cwd := Slashes(k) + c;
    JoinedNoTrailingSlash(cs);
    JoinedNotRooted(cs, true);
    assert c != [] by {
      JoinWithEndsWithLast(cs, "/");
      assert CleanComp(Last(cs));
    }
    assert cwd[|cwd| - 1] == c[|c| - 1];
    assert cwd[k] == c[0];
    InitialSlashesOfNormalForm(k, cs);
  }

  /** `normpath` of a non-empty path, from its leading slashes and the
      components its loop keeps. */
  lemma NormPathByParts(p: string, k: nat, cs: seq<string>)
    requires p != [] && k >= 1 && InitialSlashes(p) == k && NormComps([], SplitOn(p, "/"), true) == cs
    ensures NormPath(p) == Slashes(k) + JoinWith(cs, "/")
  {
  }

  /** A relative path without `..` joined onto a normal folder below the
      root normalises to the folder followed by the kept components. */
  lemma FolderRelativeJoin(k: nat, cs: seq<string>, fn: string)
    requires 1 <= k <= 2 && cs != [] && Normal(cs, true)
    requires !IsAbs(fn) && ".." !in SplitOn(fn, "/")
    ensures var cwd := Slashes(k) + JoinWith(cs, "/");
      var named := KeepNamed(SplitOn(fn, "/"));
      NormPath(Join(cwd, fn)) == if named == [] then cwd else Join(cwd, JoinWith(named, "/"))
  {
    var comps := SplitOn(fn, "/");
    var named := KeepNamed(comps);
    NormPathUnderFolder(k, cs, fn);
    if named == [] {
      assert cs + named == cs;
    } else {
      SplitPiecesFree(fn, '/');
      KeepNamedNormal(comps);
      FolderJoinSpelled(k, cs, named);
    }
  }

  /** Joining a normal list onto a normal folder below the root spells the
      concatenated list under the root. */
  lemma FolderJoinSpelled(k: nat, cs: seq<string>, named: seq<string>)
    requires 1 <= k <= 2 && cs != [] && named != [] && Normal(cs, true) && Normal(named, true)
    ensures Slashes(k) + JoinWith(cs + named, "/") == Join(Slashes(k) + JoinWith(cs, "/"), JoinWith(named, "/"))
  {
    var c := JoinWith(cs, "/");
    var cwd := Slashes(k) + c;
    var jn := JoinWith(named, "/");
    JoinWithAppend(cs, named, "/");
    assert !IsAbs(jn) by {
      JoinedNotRooted(named, true);
    }
    assert !EndsWith(cwd, "/") by {
      JoinedNoTrailingSlash(cs);
      JoinWithEndsWithLast(cs, "/");
      assert CleanComp(Last(cs));
      assert cwd[|cwd| - 1] == c[|c| - 1];
    }
    assert cwd != [];
    assert Join(cwd, jn) == (cwd + "/") + jn;
    RegroupJoin(Slashes(k), c, "/", jn);
  }

  /** `normpath(join(cwd, fn))` for a normalised absolute `cwd` and a
      relative `fn` without `..`: the empty and `.` components of `fn`
      vanish, and what is left is joined onto `cwd`. */
  lemma NormPathOfRelativeJoin(cwd: string, fn: string)
    ensures IsAbs(cwd) && NormPath(cwd) == cwd && !IsAbs(fn) && ".." !in SplitOn(fn, "/") ==>
              var named := KeepNamed(SplitOn(fn, "/"));
              NormPath(Join(cwd, fn)) == if named == [] then cwd else Join(cwd, JoinWith(named, "/"))
  {
    if IsAbs(cwd) && NormPath(cwd) == cwd && !IsAbs(fn) && ".." !in SplitOn(fn, "/") {
      var k := InitialSlashes(cwd);
      var cs := NormComps([], SplitOn(cwd, "/"), true);
      NormalFormOfRooted(cwd);
      if cs == [] {
        assert cwd == Slashes(k);
        RootRelativeJoin(k, fn);
      } else {
        FolderRelativeJoin(k, cs, fn);
      }
    }
  }

  /** Under a root, a normalised path has no `..` component: it cannot
      climb above `/`. */
  lemma NormPathRootedHasNoParent(p: string)
    requires IsAbs(p)
    ensures forall k :: 0 <= k < |SplitOn(NormPath(p), "/")| ==> SplitOn(NormPath(p), "/")[k] != ".."
  {
    var k := InitialSlashes(p);
    var cs := NormComps([], SplitOn(p, "/"), true);
    var j := JoinWith(cs, "/");
    NormPathShape(p);
    SplitLeadingSlashes(k, j);
    if cs == [] {
      assert SplitOn("", "/") == [""];
    } else {
      SplitOfJoin(cs, '/');
    }
  }

  /** The head of a path up to its last `/`, and the text after it. */
  lemma SplitAtLastSlash(p: string, i: nat)
    requires i < |p| && p[i] == '/' && '/' !in p[i + 1..]
    ensures TailStart(p) == i + 1
    ensures Basename(p) == p[i + 1..]
    ensures Dirname(p) == (var head := p[..i + 1];
                           if !AllChar(head, '/') then RStripChar(head, '/') else head)
  {
  }

  /** Stripping slashes off a head that ends in exactly one slash removes
      that slash. */
  lemma RStripSingleSlash(head: string)
    requires |head| >= 2 && head[|head| - 1] == '/' && head[|head| - 2] != '/'
    ensures RStripChar(head, '/') == head[..|head| - 1]
    ensures !AllChar(head, '/')
  {
    var h := head[..|head| - 1];
    assert h[|h| - 1] == head[|head| - 2];
  }

  /** A path whose only `/` is its first character has dirname `/`. */
  lemma DirnameOfRootChild(p: string)
    requires |p| > 0 && p[0] == '/' && '/' !in p[1..]
    ensures TailStart(p) == 1
    ensures Dirname(p) == "/"
  {
    SplitAtLastSlash(p, 0);
    assert p[..1] == "/";
  }

  /** A single `/` after a non-slash character, with no `/` after it, is
      where dirname stops. */
  lemma DirnameAtSingleSlash(p: string, i: nat)
    requires 0 < i < |p| && p[i] == '/' && p[i - 1] != '/' && '/' !in p[i + 1..]
    ensures TailStart(p) == i + 1
    ensures Dirname(p) == p[..i]
  {
    SplitAtLastSlash(p, i);
    var head := p[..i + 1];
    assert head[i - 1] == p[i - 1];
    RStripSingleSlash(head);
    assert head[..i] == p[..i];
  }

  /** Joining a component without `/` onto a folder that does not end in
      `/` puts exactly one `/` between them. */
  lemma JoinWithSlash(a: string, b: string)
    requires a != [] && a[|a| - 1] != '/' && '/' !in b
    ensures Join(a, b) == a + "/" + b
  {
    if b != [] {
      assert b[0] in b;
    }
  }

  /** The round trip for a path whose only `/` is its first character. */
  lemma RootChildRoundTrip(p: string)
    requires |p| > 0 && p[0] == '/' && '/' !in p[1..]
    ensures Join(Dirname(p), Basename(p)) == p
  {
    DirnameOfRootChild(p);
    var base := p[1..];
    assert !StartsWith(base, "/") by {
      if base != [] {
        assert base[0] in base;
      }
    }
    assert Join("/", base) == "/" + base;
    assert p == [p[0]] + base;
  }

  /** The round trip for a path whose last `/` follows a non-slash. */
  lemma InnerRoundTrip(p: string, i: nat)
    requires 0 < i < |p| && p[i] == '/' && p[i - 1] != '/' && '/' !in p[i + 1..]
    ensures Join(Dirname(p), Basename(p)) == p
  {
    DirnameAtSingleSlash(p, i);
    JoinWithSlash(p[..i], p[i + 1..]);
    assert p == p[..i] + [p[i]] + p[i + 1..];
  }

  /** Splitting a path into `dirname` and `basename` and joining them back
      gives the path again, for an absolute path with no empty component. */
  lemma JoinDirnameBasename(p: string)
    requires IsAbs(p) && !Contains(p, "//")
    ensures Join(Dirname(p), Basename(p)) == p
  {
    assert p[0] == '/';
    assert '/' in p;
    var i := RFind(p, '/').value;
    if i == 0 {
      RootChildRoundTrip(p);
    } else {
      assert !MatchAt(p, "//", i - 1);
      assert p[i - 1..i + 1] == [p[i - 1], p[i]];
      InnerRoundTrip(p, i);
    }
  }

  /** The round trip of `JoinDirnameBasename`, for any path: it holds
      whenever that lemma's condition does. */
  lemma SplitRejoins(p: string)
    ensures IsAbs(p) && !Contains(p, "//") ==> Join(Dirname(p), Basename(p)) == p
  {
    if IsAbs(p) && !Contains(p, "//") {
      JoinDirnameBasename(p);
    }
  }

  /** A text of slashes only is `Slashes` of its length. */
  lemma {:induction false} AllSlashes(s: string)
    requires AllChar(s, '/')
    ensures s == Slashes(|s|)
    decreases |s|
  {
    if s != [] {
      assert AllChar(s[1..], '/') by {
        forall i | 0 <= i < |s[1..]| ensures s[1..][i] == '/' {
          assert s[1..][i] == s[i + 1];
        }
      }
      AllSlashes(s[1..]);
      assert s == [s[0]] + s[1..];
    }
  }

  /** Two non-empty paths with the same leading slashes and the same
      components after the loop have one normal form. */
  lemma NormPathFromParts(a: string, b: string)
    requires a != [] && b != [] && InitialSlashes(a) == InitialSlashes(b)
    requires NormComps([], SplitOn(a, "/"), InitialSlashes(a) > 0) == NormComps([], SplitOn(b, "/"), InitialSlashes(a) > 0)
    ensures NormPath(a) == NormPath(b)
  {
  }

  /** The loop does not see how many slashes separate two parts of a path. */
  lemma CollapsedComps(d: string, m: nat, name: string, rooted: bool)
    requires m >= 1
    ensures NormComps([], SplitOn(d + "/" + name, "/"), rooted)
            == NormComps([], SplitOn(d + Slashes(m) + name, "/"), rooted)
  {
    var front := SplitOn(d, "/");
    var back := SplitOn(name, "/");
    var w := Slashes(m - 1) + name;
    assert d + Slashes(m) + name == d + "/" + w by {
      assert Slashes(m) == "/" + Slashes(m - 1);
      RegroupAppend(d, "/", Slashes(m - 1));
      RegroupAppend(d + "/", Slashes(m - 1), name);
    }
    assert SplitOn(d + "/" + name, "/") == front + back by {
      SplitAppend(d, '/', name);
    }
    assert SplitOn(d + "/" + w, "/") == front + (Empties(m - 1) + back) by {
      SplitAppend(d, '/', w);
      SplitLeadingSlashes(m - 1, name);
    }
    var acc := NormComps([], front, rooted);
    assert NormComps([], front + back, rooted) == NormComps(acc, back, rooted) by {
      NormCompsAppend([], front, back, rooted);
    }
    assert NormComps([], front + (Empties(m - 1) + back), rooted) == NormComps(acc, back, rooted) by {
      NormCompsAppend([], front, Empties(m - 1) + back, rooted);
      NormCompsSkipsEmpty(acc, m - 1, back, rooted);
    }
  }

  /** Nor do the leading slashes, once the folder has another character. */
  lemma CollapsedInitialSlashes(d: string, m: nat, name: string)
    requires !AllChar(d, '/')
    ensures InitialSlashes(d + "/" + name) == InitialSlashes(d + Slashes(m) + name)
  {
    InitialSlashesOfExtension(d, "/" + name);
    InitialSlashesOfExtension(d, Slashes(m) + name);
    RegroupAppend(d, "/", name);
    RegroupAppend(d, Slashes(m), name);
  }

  /** Collapsing a run of slashes between a folder and a name to one does
      not change the normal form. */
  lemma CollapsedJoinNormal(d: string, m: nat, name: string, long: string)
    requires d != [] && !AllChar(d, '/') && d[|d| - 1] != '/' && m >= 1 && '/' !in name
    requires long == d + Slashes(m) + name
    ensures NormPath(Join(d, name)) == NormPath(long)
  {
    var short := d + "/" + name;
    assert Join(d, name) == short by {
      JoinWithSlash(d, name);
    }
    CollapsedInitialSlashes(d, m, name);
    CollapsedComps(d, m, name, InitialSlashes(short) > 0);
    NormPathFromParts(short, long);
  }

  /** A head ending in `/` that is not all slashes is its stripped form
      followed by the stripped slashes. */
  lemma StrippedHead(head: string)
    requires head != [] && head[|head| - 1] == '/' && !AllChar(head, '/')
    ensures var d := RStripChar(head, '/');
      && d != [] && !AllChar(d, '/') && d[|d| - 1] != '/' && |d| < |head|
      && head == d + Slashes(|head| - |d|)
  {
    var d := RStripChar(head, '/');
    StrippedKeepsName(head);
    assert head == d + Slashes(|head| - |d|) by {
      StrippedTail(head);
    }
  }

  /** Stripping the trailing slashes keeps every character that is not
      one. */
  lemma StrippedKeepsName(head: string)
    requires !AllChar(head, '/')
    ensures var d := RStripChar(head, '/'); d != [] && !AllChar(d, '/')
  {
    var d := RStripChar(head, '/');
    var j :| 0 <= j < |head| && head[j] != '/';
    assert j < |d|;
    assert d[j] == head[j];
  }

  /** What stripping removes is a run of slashes. */
  lemma StrippedTail(head: string)
    ensures var d := RStripChar(head, '/'); head == d + Slashes(|head| - |d|)
  {
    var d := RStripChar(head, '/');
    var t := head[|d|..];
    assert AllChar(t, '/') by {
      forall i | 0 <= i < |t| ensures t[i] == '/' {
        assert t[i] == head[|d| + i];
      }
    }
    AllSlashes(t);
    assert head == d + t;
  }

  /** `join(dirname(p), basename(p))` names the same file as an absolute
      `p`: the two have one normal form, even when `p` has empty
      components. */
  lemma NormPathOfDirJoin(p: string)
    requires IsAbs(p)
    ensures NormPath(Join(Dirname(p), Basename(p))) == NormPath(p)
  {
    assert p[0] in p;
    var i := RFind(p, '/').value;
    SplitAtLastSlash(p, i);
    var head := p[..i + 1];
    var name := p[i + 1..];
    assert p == head + name;
    assert head[i] == '/';
    if AllChar(head, '/') {
      assert Join(head, name) == p by {
        assert !StartsWith(name, "/") by {
          if name != [] {
            assert name[0] in name;
          }
        }
        assert head[i..] == [head[i]];
      }
    } else {
      var d := RStripChar(head, '/');
      assert '/' !in name;
      assert d != [] && !AllChar(d, '/') && d[|d| - 1] != '/' && |d| < |head| && head == d + Slashes(|head| - |d|) by {
        StrippedHead(head);
      }
      StrippedJoinNormal(d, head, name);
    }
  }

  /** A folder followed by slashes, then a name: the folder joined onto the
      name has the same normal form. */
  lemma StrippedJoinNormal(d: string, head: string, name: string)
    requires d != [] && !AllChar(d, '/') && d[|d| - 1] != '/' && |d| < |head| && '/' !in name
    requires head == d + Slashes(|head| - |d|)
    ensures NormPath(Join(d, name)) == NormPath(head + name)
  {
    var m := |head| - |d|;
    assert head + name == d + Slashes(m) + name;
    CollapsedJoinNormal(d, m, name, head + name);
  }

  /** The basename of `join(folder, name)` is `name` when `name` is a plain
      file name. */
  lemma BasenameOfJoin(folder: string, name: string)
    requires '/' !in name
    ensures Basename(Join(folder, name)) == name
  {
    assert !StartsWith(name, "/") by {
      if name != [] {
        assert name[0] in name;
      }
    }
    if folder == [] {
      assert Join(folder, name) == name;
    } else if EndsWith(folder, "/") {
      var r := folder + name;
      assert Join(folder, name) == r;
      assert r[..|folder|] == folder && r[|folder|..] == name;
      SplitAtLastSlash(r, |folder| - 1);
    } else {
      var r := folder + "/" + name;
      assert Join(folder, name) == r;
      assert r[|folder|] == '/' && r[|folder| + 1..] == name;
      SplitAtLastSlash(r, |folder|);
    }
  }
}

=== FILE: pyint.dfy ===
/** Python's decimal integer text: `int(text)` as the parser that reads a
    compression level, and `str(n)` (which is also how `json.dumps` writes
    an integer) as the printer that is its partner. */
module PyInt {
  import opened Wrappers
  import opened PyStr

  /** Python raises `ValueError: invalid literal for int() with base 10`. */
  datatype IntError = InvalidLiteral(text: string)

  /** What `int()` strips from both ends of its argument: the ASCII
      whitespace `\t \n \v \f \r` and space, plus the non-ASCII characters
      `str.isspace()` accepts (CPython first maps those to a space). The
      ASCII separators U+001C to U+001F, which `str.isspace()` also accepts,
      are not stripped. */
  predicate IsSpace(c: char) {
    c in {'\U{0009}', '\U{000A}', '\U{000B}', '\U{000C}', '\U{000D}',
          '\U{0020}', '\U{0085}', '\U{00A0}', '\U{1680}', '\U{2000}',
          '\U{2001}', '\U{2002}', '\U{2003}', '\U{2004}', '\U{2005}', '\U{2006}', '\U{2007}',
          '\U{2008}', '\U{2009}', '\U{200A}', '\U{2028}', '\U{2029}', '\U{202F}', '\U{205F}',
          '\U{3000}'}
  }

  predicate IsDigit(c: char) {
    '0' <= c <= '9'
  }

  function DigitValue(c: char): nat
    requires IsDigit(c)
  {
    c as nat - '0' as nat
  }

  function DigitChar(d: nat): (c: char)
    requires d < 10
    ensures IsDigit(c) && DigitValue(c) == d
  {
    ('0' as nat + d) as char
  }

  /** Leading whitespace removed. */
  function LStrip(s: string): (r: string)
    ensures |r| <= |s| && r == s[|s| - |r|..]
    ensures |r| > 0 ==> !IsSpace(r[0])
  {
    if |s| > 0 && IsSpace(s[0]) then LStrip(s[1..]) else s
  }

  /** Trailing whitespace removed. */
  function RStrip(s: string): (r: string)
    ensures |r| <= |s| && r == s[..|r|]
    ensures |r| > 0 ==> !IsSpace(r[|r| - 1])
  {
    if |s| > 0 && IsSpace(s[|s| - 1]) then RStrip(s[..|s| - 1]) else s
  }

  /** Python's `s.strip()`. */
  function Strip(s: string): string {
    RStrip(LStrip(s))
  }

  /** The digit part `int()` accepts in base 10: ASCII digits, where single
      underscores may separate two digits. Leading zeros are allowed. */
  predicate WellFormedDigits(d: string) {
    && |d| > 0
    && IsDigit(d[0])
    && IsDigit(d[|d| - 1])
    && (forall i :: 0 <= i < |d| ==> IsDigit(d[i]) || d[i] == '_')
    && !Contains(d, "__")
  }

  /** Value of a run of ASCII digits, most significant first. */
  function DigitsValue(d: string): nat
    requires forall i :: 0 <= i < |d| ==> IsDigit(d[i])
  {
    if |d| == 0 then 0
    else 10 * DigitsValue(d[..|d| - 1]) + DigitValue(d[|d| - 1])
  }

  lemma {:induction false} RemoveUnderscoresLeavesDigits(d: string)
    requires forall i :: 0 <= i < |d| ==> IsDigit(d[i]) || d[i] == '_'
    ensures forall i :: 0 <= i < |RemoveAll(d, "_")| ==> IsDigit(RemoveAll(d, "_")[i])
    decreases |d|
  {
    if |d| < 1 {
    } else if d[..1] == "_" {
      RemoveUnderscoresLeavesDigits(d[1..]);
    } else {
      RemoveUnderscoresLeavesDigits(d[1..]);
    }
  }

  /** Value of a well-formed digit run: the underscores are skipped. */
  function UnderscoredValue(d: string): nat
    requires WellFormedDigits(d)
  {
    RemoveUnderscoresLeavesDigits(d);
    DigitsValue(RemoveAll(d, "_"))
  }

  /** Python's `int(s)` for a `str` argument and the default base 10:
      surrounding whitespace, then an optional sign, then a well-formed digit
      run; anything else is a ValueError. */
  function ParseInt(s: string): Result<int, IntError>
  {
    match ParseStripped(Strip(s))
    case Some(v) => Ok(v)
    case None => Err(InvalidLiteral(s))
  }

  /** The value of the text left after stripping: an optional sign, then a
      well-formed digit run. */
  function ParseStripped(t: string): Option<int>
  {
    if |t| > 0 && (t[0] == '+' || t[0] == '-') then
      if WellFormedDigits(t[1..]) then
        var v: int := UnderscoredValue(t[1..]);
        var signed: int := if t[0] == '-' then -v else v;
        Some(signed)
      else None
    else if WellFormedDigits(t) then Some(UnderscoredValue(t))
    else None
  }

  /** Python's `str(n)` for a non-negative integer. */
  function ShowNat(n: nat): (r: string)
    ensures |r| > 0
    ensures forall i :: 0 <= i < |r| ==> IsDigit(r[i])
  {
    if n < 10 then [DigitChar(n)] else ShowNat(n / 10) + [DigitChar(n % 10)]
  }

  /** Python's `str(n)` (and `json.dumps(n)`) for any integer. */
  function Show(n: int): string {
    if n < 0 then "-" + ShowNat(-n) else ShowNat(n)
  }

  // ---------------------------------------------------------------------
  // Round trip: int(str(n)) == n

  lemma {:induction false} ShowNatValue(n: nat)
    ensures DigitsValue(ShowNat(n)) == n
    decreases n
  {
    if n >= 10 {
      var r := ShowNat(n);
      ShowNatValue(n / 10);
      assert r[..|r| - 1] == ShowNat(n / 10);
    }
  }

  /** A digit run without underscores is well formed and keeps its value. */
  lemma PlainDigits(d: string)
    requires |d| > 0 && forall i :: 0 <= i < |d| ==> IsDigit(d[i])
    ensures WellFormedDigits(d)
    ensures UnderscoredValue(d) == DigitsValue(d)
  {
    forall i ensures !MatchAt(d, "_", i) {
      if 0 <= i && i + 1 <= |d| {
        assert d[i..i + 1][0] == d[i];
      }
    }
    forall i ensures !MatchAt(d, "__", i) {
      if 0 <= i && i + 2 <= |d| {
        assert d[i..i + 2][0] == d[i];
      }
    }
    RemoveAllNoMatch(d, "_");
  }

  /** A string that neither starts nor ends with whitespace is its own
      strip. */
  lemma StripUnspaced(s: string)
    requires |s| > 0 && !IsSpace(s[0]) && !IsSpace(s[|s| - 1])
    ensures Strip(s) == s
  {
  }

  /** `int(str(n)) == n` for every integer `n`. */
  lemma ParseShow(n: int)
    ensures ParseInt(Show(n)) == Ok(n)
  {
    var s := Show(n);
    if n < 0 {
      var d := ShowNat(-n);
      assert s == "-" + d;
      StripUnspaced(s);
      assert s[1..] == d;
      PlainDigits(d);
      ShowNatValue(-n);
      assert UnderscoredValue(s[1..]) == -n;
    } else {
      var d := ShowNat(n);
      StripUnspaced(d);
      assert !(s[0] == '+' || s[0] == '-');
      PlainDigits(d);
      ShowNatValue(n);
    }
  }

  /** A leading character `int()` strips leaves the result unchanged. */
  lemma LeadingSpaceIgnored(c: char, s: string)
    requires IsSpace(c)
    ensures ParseInt([c] + s).Ok? <==> ParseInt(s).Ok?
    ensures ParseInt(s).Ok? ==> ParseInt([c] + s) == ParseInt(s)
  {
    assert ([c] + s)[1..] == s;
    assert LStrip([c] + s) == LStrip(s);
  }

  /** A leading character that is neither stripped, nor a sign, nor a digit
      makes `int()` fail, whatever follows. */
  lemma LeadingJunkRejected(c: char, s: string)
    requires !IsSpace(c) && !IsDigit(c) && c != '+' && c != '-'
    ensures ParseInt([c] + s).Err?
  {
    var u := [c] + s;
    assert LStrip(u) == u;
    var t := Strip(u);
    if |t| > 0 {
      assert t[0] == u[0];
    }
  }
}

=== FILE: pystr.dfy ===
/** The handful of Python `str` operations the package format relies on:
    `startswith`, `endswith`, `replace(old, "")`, `split(sep)`,
    `split(sep, 1)` and `sep.join(parts)`, each with Python's
    left-to-right, non-overlapping matching. */
module PyStr {
  import opened Wrappers

  /** `p` occurs in `s` starting at index `i`. */
  predicate MatchAt(s: string, p: string, i: int) {
    0 <= i && i + |p| <= |s| && s[i..i + |p|] == p
  }

  /** Python's `p in s`. */
  predicate Contains(s: string, p: string) {
    exists i :: 0 <= i <= |s| && MatchAt(s, p, i)
  }

  /** Python's `s.startswith(p)`. */
  predicate StartsWith(s: string, p: string) {
    |p| <= |s| && s[..|p|] == p
  }

  /** Python's `s.endswith(p)`. */
  predicate EndsWith(s: string, p: string) {
    |p| <= |s| && s[|s| - |p|..] == p
  }

  /** Python's `sep.join(parts)`. */
  function JoinWith(parts: seq<string>, sep: string): string
  {
    if |parts| == 0 then []
    else if |parts| == 1 then parts[0]
    else parts[0] + sep + JoinWith(parts[1..], sep)
  }

  /** Python's `s.split(sep)` for a non-empty separator (Python raises
      ValueError on an empty one). */
  function SplitOn(s: string, sep: string): (r: seq<string>)
    requires sep != []
    ensures |r| >= 1
    decreases |s|
  {
    if |s| < |sep| then [s]
    else if s[..|sep|] == sep then [[]] + SplitOn(s[|sep|..], sep)
    else
      var t := SplitOn(s[1..], sep);
      [[s[0]] + t[0]] + t[1..]
  }

  /** Python's `s.replace(pat, "")`: every non-overlapping occurrence of
      `pat`, found left to right, is deleted. With an empty `pat` Python
      inserts the (empty) replacement between characters, which leaves `s`
      as it is. */
  function RemoveAll(s: string, pat: string): (r: string)
    ensures |r| <= |s|
    decreases |s|
  {
    if pat == [] || |s| < |pat| then s
    else if s[..|pat|] == pat then RemoveAll(s[|pat|..], pat)
    else [s[0]] + RemoveAll(s[1..], pat)
  }

  /** Index of the first `c` in `s` (Python's `s.find(c)`), if any. */
  function IndexOf(s: string, c: char): (r: Option<nat>)
    ensures r.None? <==> c !in s
    ensures r.Some? ==> r.value < |s| && s[r.value] == c && c !in s[..r.value]
  {
    if |s| == 0 then None
    else if s[0] == c then Some(0)
    else
      match IndexOf(s[1..], c)
      case None => None
      case Some(i) =>
        assert s[1..][..i] == s[1..i + 1];
        Some(i + 1)
  }

  /** Python's `s.split(c, 1)`: the text before the first `c` and the text
      after it, or `[s]` when `c` does not occur. */
  function SplitOnce(s: string, c: char): (r: seq<string>)
    ensures 1 <= |r| <= 2
    ensures |r| == 1 <==> c !in s
    ensures c !in r[0]
    ensures JoinWith(r, [c]) == s
  {
    match IndexOf(s, c)
    case None => [s]
    case Some(i) =>
      assert s[..i] + [c] + s[i + 1..] == s;
      [s[..i], s[i + 1..]]
  }

  /** Python's `xs[-1]` on a non-empty list. */
  function Last<T>(xs: seq<T>): T
    requires |xs| > 0
  {
    xs[|xs| - 1]
  }

  // ---------------------------------------------------------------------
  // Occurrences and the prefixes and suffixes that carry them

  lemma MatchInTail(s: string, p: string, i: int)
    requires |s| > 0 && MatchAt(s[1..], p, i)
    ensures MatchAt(s, p, i + 1)
  {
    assert s[1..][i..i + |p|] == s[i + 1..i + 1 + |p|];
  }

  /** The first `c` is at `i` when `s[i]` is `c` and nothing before it is. */
  lemma IndexOfAt(s: string, c: char, i: nat)
    requires i < |s| && s[i] == c && c !in s[..i]
    ensures IndexOf(s, c) == Some(i)
  {
  }

  // ---------------------------------------------------------------------
  // Properties of RemoveAll

  /** A string in which `pat` never occurs is left unchanged. */
  lemma {:induction false} RemoveAllNoMatch(s: string, pat: string)
    requires forall i :: !MatchAt(s, pat, i)
    ensures RemoveAll(s, pat) == s
    decreases |s|
  {
    if pat == [] || |s| < |pat| {
    } else {
      assert !MatchAt(s, pat, 0);
      forall i
        ensures !MatchAt(s[1..], pat, i)
      {
        if MatchAt(s[1..], pat, i) {
          MatchInTail(s, pat, i);
        }
      }
      RemoveAllNoMatch(s[1..], pat);
    }
  }

  /** When the first occurrence of `pat` in `a + pat + b` is the one right
      after `a`, deleting every occurrence keeps `a` and continues in `b`. */
  lemma {:induction false} RemoveAllFirstMatch(a: string, pat: string, b: string)
    requires pat != []
    requires forall i :: 0 <= i < |a| ==> !MatchAt(a + pat + b, pat, i)
    ensures RemoveAll(a + pat + b, pat) == a + RemoveAll(b, pat)
    decreases |a|
  {
    var s := a + pat + b;
    if |a| == 0 {
      assert s == pat + b;
      assert s[..|pat|] == pat;
      assert s[|pat|..] == b;
    } else {
      var t := a[1..] + pat + b;
      assert s[1..] == t;
      assert s[..|pat|] != pat by {
        assert !MatchAt(s, pat, 0);
        assert s[0..|pat|] == s[..|pat|];
      }
      assert RemoveAll(s, pat) == [s[0]] + RemoveAll(t, pat);
      TailHasNoEarlyMatch(s, a[1..], pat, b);
      RemoveAllFirstMatch(a[1..], pat, b);
      assert [a[0]] + a[1..] == a;
    }
  }

  /** Dropping the first character of `a` keeps the "no earlier match"
      condition. */
  lemma TailHasNoEarlyMatch(s: string, a': string, pat: string, b: string)
    requires |s| > 0 && s[1..] == a' + pat + b
    requires forall i :: 0 <= i < |a'| + 1 ==> !MatchAt(s, pat, i)
    ensures forall i :: 0 <= i < |a'| ==> !MatchAt(a' + pat + b, pat, i)
  {
    forall i | 0 <= i < |a'|
      ensures !MatchAt(a' + pat + b, pat, i)
    {
      if MatchAt(s[1..], pat, i) {
        MatchInTail(s, pat, i);
      }
    }
  }

  /** Deleting every occurrence is the same as splitting on them and
      concatenating the pieces: Python's `s.replace(p, "")` equals
      `"".join(s.split(p))`. */
  lemma {:induction false} RemoveAllIsJoinOfSplit(s: string, pat: string)
    requires pat != []
    ensures RemoveAll(s, pat) == JoinWith(SplitOn(s, pat), [])
    decreases |s|
  {
    if |s| < |pat| {
    } else if s[..|pat|] == pat {
      RemoveAllIsJoinOfSplit(s[|pat|..], pat);
      JoinWithCons([], SplitOn(s[|pat|..], pat), []);
    } else {
      var t := SplitOn(s[1..], pat);
      RemoveAllIsJoinOfSplit(s[1..], pat);
      JoinWithHeadPrefix([s[0]], t, []);
    }
  }

  /** Joining `[x] + rest` puts `x` and then, if `rest` is non-empty, a
      separator in front of the join of `rest`. */
  lemma JoinWithCons(x: string, rest: seq<string>, sep: string)
    requires |rest| > 0
    ensures JoinWith([x] + rest, sep) == x + sep + JoinWith(rest, sep)
  {
    assert ([x] + rest)[1..] == rest;
  }

  /** Prefixing the first part prefixes the join. */
  lemma JoinWithHeadPrefix(c: string, t: seq<string>, sep: string)
    requires |t| > 0
    ensures JoinWith([c + t[0]] + t[1..], sep) == c + JoinWith(t, sep)
  {
    if |t| == 1 {
    } else {
      assert ([c + t[0]] + t[1..])[1..] == t[1..];
    }
  }

  /** Splitting and joining back with the same separator gives the
      original string. */
  lemma {:induction false} JoinOfSplit(s: string, sep: string)
    requires sep != []
    ensures JoinWith(SplitOn(s, sep), sep) == s
    decreases |s|
  {
    if |s| < |sep| {
    } else if s[..|sep|] == sep {
      var rest := s[|sep|..];
      assert SplitOn(s, sep) == [[]] + SplitOn(rest, sep);
      assert JoinWith(SplitOn(rest, sep), sep) == rest by {
        JoinOfSplit(rest, sep);
      }
      JoinWithCons([], SplitOn(rest, sep), sep);
      assert [] + sep + rest == s;
    } else {
      var t := SplitOn(s[1..], sep);
      assert SplitOn(s, sep) == [[s[0]] + t[0]] + t[1..];
      assert JoinWith(t, sep) == s[1..] by {
        JoinOfSplit(s[1..], sep);
      }
      JoinWithHeadPrefix([s[0]], t, sep);
      assert [s[0]] + s[1..] == s;
    }
  }

  /** A string without the separator character splits into itself alone. */
  lemma {:induction false} SplitNoSeparator(s: string, c: char)
    requires c !in s
    ensures SplitOn(s, [c]) == [s]
    decreases |s|
  {
    if |s| < 1 {
    } else {
      assert s[..1] == [s[0]];
      SplitNoSeparator(s[1..], c);
      assert [s[0]] + s[1..] == s;
    }
  }

  /** Splitting on a one-character separator cuts at its first occurrence. */
  lemma {:induction false} SplitAtFirst(x: string, c: char, y: string)
    requires c !in x
    ensures SplitOn(x + [c] + y, [c]) == [x] + SplitOn(y, [c])
    decreases |x|
  {
    var s := x + [c] + y;
    if |x| == 0 {
      assert s[..1] == [c];
      assert s[1..] == y;
    } else {
      assert s[..1] == [x[0]];
      assert s[1..] == x[1..] + [c] + y;
      SplitAtFirst(x[1..], c, y);
      assert [x[0]] + x[1..] == x;
    }
  }

  /** For a one-character separator, joining parts that do not contain it
      and splitting again gives back the parts. */
  lemma {:induction false} SplitOfJoin(parts: seq<string>, c: char)
    requires |parts| > 0
    requires forall k :: 0 <= k < |parts| ==> c !in parts[k]
    ensures SplitOn(JoinWith(parts, [c]), [c]) == parts
    decreases |parts|
  {
    if |parts| == 1 {
      SplitNoSeparator(parts[0], c);
    } else {
      SplitOfJoin(parts[1..], c);
      SplitAtFirst(parts[0], c, JoinWith(parts[1..], [c]));
      assert [parts[0]] + parts[1..] == parts;
    }
  }

  /** Joining a concatenation of two non-empty lists puts one separator
      between the two joins. */
  lemma {:induction false} JoinWithAppend(xs: seq<string>, ys: seq<string>, sep: string)
    requires |xs| > 0 && |ys| > 0
    ensures JoinWith(xs + ys, sep) == JoinWith(xs, sep) + sep + JoinWith(ys, sep)
    decreases |xs|
  {
    if |xs| == 1 {
      assert xs + ys == [xs[0]] + ys;
      JoinWithCons(xs[0], ys, sep);
    } else {
      JoinWithAppend(xs[1..], ys, sep);
      assert xs + ys == [xs[0]] + (xs[1..] + ys);
      JoinWithCons(xs[0], xs[1..] + ys, sep);
      JoinWithCons(xs[0], xs[1..], sep);
      assert [xs[0]] + xs[1..] == xs;
    }
  }

  /** A join ends with the last part. */
  lemma {:induction false} JoinWithEndsWithLast(parts: seq<string>, sep: string)
    requires |parts| > 0
    ensures EndsWith(JoinWith(parts, sep), Last(parts))
    decreases |parts|
  {
    if |parts| > 1 {
      JoinWithEndsWithLast(parts[1..], sep);
      assert Last(parts[1..]) == Last(parts);
      var j := JoinWith(parts, sep);
      var t := JoinWith(parts[1..], sep);
      assert j == parts[0] + sep + t;
      assert j[|j| - |t|..] == t;
      assert j[|j| - |Last(parts)|..] == t[|t| - |Last(parts)|..];
    }
  }
  /** Regrouping a three-part concatenation. */
  lemma RegroupAppend<T>(a: seq<T>, b: seq<T>, c: seq<T>)
    ensures (a + b) + c == a + (b + c)
  {
  }

  /** Regrouping a four-part concatenation, the shape a path joined onto a
      folder takes (`prefix + folder + "/" + name`). */
  lemma RegroupJoin(a: string, b: string, c: string, d: string)
    ensures ((a + b) + c) + d == a + ((b + c) + d)
  {
  }

  /** Splitting on a one-character separator distributes over a text cut at
      one occurrence of it: the pieces of `x` come first, then those of `y`. */
  lemma SplitAppend(x: string, c: char, y: string)
    ensures SplitOn(x + [c] + y, [c]) == SplitOn(x, [c]) + SplitOn(y, [c])
  {
    var xs := SplitOn(x, [c]);
    var ys := SplitOn(y, [c]);
    var j := JoinWith(xs + ys, [c]);
    assert j == x + [c] + y by {
      JoinOfSplit(x, [c]);
      JoinOfSplit(y, [c]);
      JoinWithAppend(xs, ys, [c]);
    }
    assert SplitOn(j, [c]) == xs + ys by {
      SplitPiecesFree(x, c);
      SplitPiecesFree(y, c);
      PiecesFreeAppend(xs, ys, c);
      SplitOfJoin(xs + ys, c);
    }
  }

  /** Two lists of pieces free of `c` concatenate into one. */
  lemma PiecesFreeAppend(xs: seq<string>, ys: seq<string>, c: char)
    requires forall k :: 0 <= k < |xs| ==> c !in xs[k]
    requires forall k :: 0 <= k < |ys| ==> c !in ys[k]
    ensures forall k :: 0 <= k < |xs + ys| ==> c !in (xs + ys)[k]
  {
    forall k | 0 <= k < |xs + ys| ensures c !in (xs + ys)[k] {
      if k >= |xs| {
        assert (xs + ys)[k] == ys[k - |xs|];
      }
    }
  }

  /** No piece of a split on `c` contains `c`. */
  lemma {:induction false} SplitPiecesFree(s: string, c: char)
    ensures forall k :: 0 <= k < |SplitOn(s, [c])| ==> c !in SplitOn(s, [c])[k]
    decreases |s|
  {
    if |s| >= 1 {
      SplitPiecesFree(s[1..], c);
      if s[..1] != [c] {
        assert s[0] != c;
      }
    }
  }



}

=== FILE: wrappers.dfy ===
/** Option and Result values used by every other module in place of Python's
    None and raised exceptions. */
module Wrappers {

  datatype Option<+T> = None | Some(value: T)

  datatype Result<+R, +E> = Ok(value: R) | Err(error: E)
}
